=== FILE: README.md ===
# Database operator reconciler, modelled in Dafny

This project models the reconcile loop of a Kubernetes operator that manages
PostgreSQL databases declared as `Database` custom resources. For each
`Database` object, one reconcile pass does the following:

- fetches the object;
- leaves a `Terminating` object alone;
- picks the database adapter from the object's type;
- runs the finalizer protocol on the `db.clarizen.cloud` finalizer. An object
  that is not being deleted gets the finalizer added. An object being deleted
  is finalized: its credential secret, its owner and, when asked, its database
  are dropped. The object is then released and marked `Terminating`;
- provisions a database that is not yet `Created`: it checks whether the
  database exists and, if not, creates the database, a generated owner and a
  credential secret, and records phase `Created`;
- converges the `<name>_admins` role. Members that are no longer declared are
  revoked, and the owner and the declared users who are missing are granted.

A pass is the pure function `Reconciler.Reconcile(w, o)`:

- The world `w` is what the pass sees: the stored object, the database server
  behind the adapter, and the secrets.
- The oracle `o` answers everything the pass cannot decide itself: whether
  the fetch fails, which requests fail, the generated password, and the
  server host.
- The result has three parts:
  - the trace, which lists every request in the order it was issued;
  - the world those requests left behind;
  - the error the pass returns.

Modules:

- `Lists` holds the controller's slice helpers: `contains`, `removeString`,
  and the order-preserving difference that the grant and revoke loops compute.
- `Resource` holds the custom resource and the credential secret.
- `External` holds the requests a pass can issue and their effect on the
  server.
- `Reconciler` holds the pass itself, layer by layer:
  - `ReconcileObject`: the type switch;
  - `Protect`: the finalizer protocol;
  - `Finalize`;
  - `Provision`, `Create` and `Publish`: provisioning;
  - `Converge`: role convergence.
- `ReconcilerProperties`, `ProvisioningProperties` and `PassProperties` hold
  the properties of single layers and of whole passes.
- `Scenarios` works through a fresh object on a server where only the
  declared user's login exists.

## Model

| member | source | states |
|---|---|---|
| `Lists.Contains` | controllers/database_controller.go:208-215 | the linear search answers true exactly when the string occurs in the slice |
| `Lists.RemoveString` | controllers/database_controller.go:217-225 | the result never holds the removed string, and holds every other value exactly when the input does |
| `Lists.RemoveStringCounts` | controllers/database_controller.go:217-225 | every value other than the removed one keeps its multiplicity, and the removed one occurs zero times |
| `Lists.RemoveStringKeepsOrder` | controllers/database_controller.go:217-225 | the kept entries appear in their original order (the result is a subsequence of the input) |
| `Lists.RemoveStringAbsent` | controllers/database_controller.go:217-225 | removing a string that does not occur returns the slice unchanged |
| `Lists.RemoveStringIdempotent` | controllers/database_controller.go:217-225 | a second removal of the same string changes nothing |
| `Lists.RemoveStringAppend` | controllers/database_controller.go:217-225 | removal over a concatenation is the concatenation of the removals |
| `Lists.Missing` | controllers/database_controller.go:172-197 | the entries each loop acts on are exactly those of one slice that the other does not contain |
| `Lists.MissingCounts` | controllers/database_controller.go:173-174 | each acted-on entry keeps its multiplicity from the slice being walked |
| `Lists.MissingKeepsOrder` | controllers/database_controller.go:186-187 | the acted-on entries keep the order of the slice being walked |
| `Lists.MissingFromEmpty` | controllers/database_controller.go:186-187 | against an empty listing, every desired entry is granted, in order |
| `Resource.CredentialSecretContents` | controllers/database_controller.go:137-149 | the secret's data has exactly the five keys host, port, name, user and password, with port 5432 and name equal to the database name |
| `Resource.CredentialKeyIgnoresStatus` | controllers/database_controller.go:231-234 | the secret the finalizer deletes has the key of the secret creation wrote, whatever the status and finalizers |
| `Resource.CredentialKeyDistinguishesNames` | controllers/database_controller.go:139-140 | the secret is keyed by the namespace and `<name>-<type>`, so two databases of one type in one namespace share a secret key if and only if they share a name |
| `Resource.CredentialSecret` | controllers/database_controller.go:137-149 | the secret written after creation has the credential key, the fixed port 5432, and the database name as its database field |
| `Resource.DataRoundTrip` | controllers/database_controller.go:142-148 | reading back the data the controller lays out gives the same connection fields |
| `Resource.FieldsThenData` | controllers/database_controller.go:142-148 | a data map with exactly the five connection keys is the layout of the fields read back from it, so the layout loses and invents no entry |
| `External.Perform` | controllers/postgres/postgres.go:52-170 | creating the owner adds the login and the role; dropping the owner removes the login, the role and every membership; the database exists after creation and not after a drop; read-only requests change nothing |
| `External.PerformMembers` | controllers/postgres/postgres.go:119-138 | a grant adds exactly its grantee to the role and a revoke removes exactly its grantee |
| `Reconciler.Reconcile` | controllers/database_controller.go:60-73 | a failed fetch is reported and only then; "unsupported" is reported exactly for a stored object that is not Terminating and has type `*`; a missing object is never an error |
| `Reconciler.ReconcileObject` | controllers/database_controller.go:71-83 | "unsupported" is reported if and only if the object is not Terminating and its type is `*`; every other error is a request that failed |
| `Reconciler.Desired` | controllers/database_controller.go:169-170 | the role should hold exactly the owner, named after the database, and the declared users |
| `Reconciler.Finalize` | controllers/database_controller.go:227-252 | the finalizer always reports no error and issues the secret delete, the owner drop, then the database drop only when `drop` is set |
| `Reconciler.FinalizeOrder` | controllers/database_controller.go:237-250 | the secret delete comes first and the owner drop second; the database drop is issued if and only if `drop` is set |
| `Reconciler.FinalizeSpec` | controllers/database_controller.go:235-250 | after finalizing, the secret is gone if its delete succeeded, and the owner, the role and its members are gone if the drop succeeded; the database survives unless its drop was asked for and succeeded; the stored object is untouched |
| `Reconciler.Provision` | controllers/database_controller.go:109-115 | provisioning starts with the existence check while the phase is not Created, and goes straight to the member listing otherwise |
| `Reconciler.Create` | controllers/database_controller.go:117-135 | creation starts with the database creation request and keeps the requests issued before it; an error it reports is a request that failed |
| `Reconciler.Publish` | controllers/database_controller.go:137-162 | publishing starts with the secret write; when that write fails the pass ends with no error, no further request and the world as it was |
| `Reconciler.Protect` | controllers/database_controller.go:85-107 | the finalizer protocol always issues at least one request after the preamble; an error it reports is a request that failed |
| `Reconciler.Converge` | controllers/database_controller.go:165-168 | convergence starts with the member listing; it fails if and only if the listing fails, and then nothing changes |
| `Reconciler.RevokesMembers` | controllers/database_controller.go:172-184 | after the revokes, a member remains exactly when it was not to be revoked or its revoke failed |
| `Reconciler.GrantsMembers` | controllers/database_controller.go:185-197 | after the grants, an entry is a member exactly when it was one already or its grant succeeded |
| `Reconciler.ConvergeCalls` | controllers/database_controller.go:169-197 | after the listing come only revokes and grants, all revokes before all grants; a member is revoked if and only if it is not desired; a desired user is granted if and only if it is not a member |
| `Reconciler.ConvergeMembers` | controllers/database_controller.go:172-197 | afterwards the role holds the members that are desired or whose revoke failed, plus the desired non-members whose grant succeeded |
| `Reconciler.ConvergeFrame` | controllers/database_controller.go:165-197 | convergence changes nothing but the role's members |
| `ReconcilerProperties.FetchOutcome` | controllers/database_controller.go:65-69 | a failed fetch is reported; a missing object is not an error; neither issues any request |
| `ReconcilerProperties.TerminatingIsNoOp` | controllers/database_controller.go:71-73 | a Terminating object gets no request, no change and no error |
| `ReconcilerProperties.AdmissionFailures` | controllers/database_controller.go:75-83 | the pass reports "unsupported" if and only if the type is the literal `*`, and issues nothing then; a PostgreSQL adapter that cannot connect fails the pass after the connection attempt alone |
| `ReconcilerProperties.Admission` | controllers/database_controller.go:75-87 | an admitted object reaches the finalizer protocol with the world unchanged, after only the connection request (PostgreSQL) or nothing at all (other types) |
| `ReconcilerProperties.CreationSequence` | controllers/database_controller.go:117-162 | creation issues the database, the password, the owner named after the database, the secret, the Created update and the listing, in that order; each is issued if and only if every request before it succeeded |
| `ReconcilerProperties.CreationSecretFailure` | controllers/database_controller.go:151-155 | a failed secret write ends the pass with no error and leaves the stored object untouched |
| `ReconcilerProperties.CreationCompleted` | controllers/database_controller.go:157-162 | once the Created update succeeds, the stored object has phase Created, the secret is written, and the database and the owner's login exist |
| `ReconcilerProperties.CreateEndsWithFatal` | controllers/database_controller.go:117-161 | every error of creation is the failure of its last request, and that request is one whose failure the controller returns |
| `ReconcilerProperties.ErrorsAreFatal` | controllers/database_controller.go:60-199 | a pass reports an error only for a failed fetch, for the `*` type, or for a failed fatal request that it issued last; grant, revoke, drop and secret failures never surface |
| `ReconcilerProperties.FatalFailuresAreReported` | controllers/database_controller.go:60-199 | whenever the last request of a pass is one whose failure the controller returns (connect, existence check, database, password, owner, update, listing) and it failed, the pass reports exactly that failure; with `ErrorsAreFatal`, a pass that issued requests fails if and only if its last request is such a failure |
| `ReconcilerProperties.ProvisionReportsFatal` | controllers/database_controller.go:109-199 | a failed existence check, creation request, Created update or listing that ends provisioning is the error reported; conversely every error reported is such a failure of the last request, so a failed secret write, grant or revoke never is |
| `ReconcilerProperties.ProtectReportsFatal` | controllers/database_controller.go:85-199 | a failed finalizer registration or release that ends the pass is the error reported, and so is every fatal failure of provisioning |
| `ReconcilerProperties.FinalizerRegistered` | controllers/database_controller.go:87-93 | an object that is not being deleted and lacks the finalizer has it appended and persisted right after the preamble; if that update fails, the pass ends with its error |
| `ReconcilerProperties.DeletionFinalizes` | controllers/database_controller.go:94-105 | an object being deleted that carries the finalizer is finalized and then persisted without the finalizer and as Terminating; the trace, the error and the stored object are given exactly |
| `ReconcilerProperties.DeletionReleases` | controllers/database_controller.go:99-100 | after a successful release, no copy of the finalizer remains and the other finalizers keep their order and multiplicity |
| `ReconcilerProperties.DeletionDoesNotProvision` | controllers/database_controller.go:94-106 | a deletion pass issues no existence check, no creation and no membership request |
| `ReconcilerProperties.ProtectEndsWithFatal` | controllers/database_controller.go:85-107 | every error of the finalizer protocol and what follows it is the failure of the last request, and that request is fatal |
| `ReconcilerProperties.ProvisionEndsWithFatal` | controllers/database_controller.go:109-168 | every error of provisioning is the failure of the last request, and that request is fatal |
| `ProvisioningProperties.QuietConverge` | controllers/database_controller.go:165-197 | a role that already has exactly the desired members is listed and nothing else is done |
| `ProvisioningProperties.ConvergeOnlyMembership` | controllers/database_controller.go:165-197 | convergence issues only listing, grant and revoke requests |
| `ProvisioningProperties.ConvergeAllSucceed` | controllers/database_controller.go:165-197 | with every request succeeding, the role ends with exactly the desired members, no error is reported, and nothing else changes |
| `ProvisioningProperties.CreateStored` | controllers/database_controller.go:117-162 | creation stores nothing new, or stores the object with phase Created |
| `ProvisioningProperties.ProvisionStored` | controllers/database_controller.go:109-163 | provisioning stores nothing new, or stores the object with phase Created |
| `ProvisioningProperties.ProvisionCreatesOnlyWhenMissing` | controllers/database_controller.go:109-118 | creation starts right after the existence check exactly when the phase is not Created and the check finds no database; in every other case no creation request is issued |
| `ProvisioningProperties.ProvisionExisting` | controllers/database_controller.go:109-116 | when the database already exists, provisioning creates nothing and changes nothing but the role's members, whatever fails; in particular the phase stays as it was |
| `ProvisioningProperties.ProvisionAllSucceed` | controllers/database_controller.go:109-199 | with every request succeeding, provisioning reports no error and converges the role; afterwards the database exists if and only if it existed or the phase was not Created |
| `ProvisioningProperties.CreateAllSucceed` | controllers/database_controller.go:117-162 | with every request succeeding, creation issues its five requests, then converges the Created object with the database, the owner and the secret in place |
| `PassProperties.ProtectStored` | controllers/database_controller.go:85-107 | the finalizer protocol stores one of these: nothing new, the object as Created, the registered object, or the released object |
| `PassProperties.StatusOnly` | controllers/database_controller.go:60-200 | a pass changes only the object's phase and finalizers; it writes only Created or Terminating, and Terminating only while deleting; the finalizer is added once or all its copies are removed; a Terminating object is left as it was |
| `PassProperties.FinalizerPrecedesProvisioning` | controllers/database_controller.go:87-109 | for an object not being deleted, every provisioning request comes after the finalizer is in place |
| `PassProperties.RegisteredGoesToProvisioning` | controllers/database_controller.go:87-93 | the finalizer is appended only when absent: an object that carries it goes from the preamble straight to provisioning, with no update, and keeps its finalizers |
| `PassProperties.ConvergesWhenAllSucceed` | controllers/database_controller.go:60-200 | with every request succeeding, the role ends with exactly the owner and the declared users, and no error is reported |
| `PassProperties.FirstPass` | controllers/database_controller.go:60-200 | a fully successful pass leaves the object carrying the finalizer with its spec unchanged; the role is converged, and the database exists unless the phase is Created |
| `PassProperties.QuietWhenConverged` | controllers/database_controller.go:109-199 | once the object is Created, registered and converged, a pass only lists the members and changes nothing |
| `PassProperties.SecondPassIsQuiet` | controllers/database_controller.go:60-200 | after a fully successful pass, a second pass changes nothing, reports no error, and issues only the preamble, the existence check (when not Created) and the listing |
| `PassProperties.SecretFailureIsNotRetried` | controllers/database_controller.go:109-155 | when only the secret fails, the first pass creates the database without recording Created and returns nil; the next pass, whichever of its requests fail or succeed, issues no creation request and leaves the secrets as they were, so the secret is never written |
| `PassProperties.ExistingDatabaseIsNotCreated` | controllers/database_controller.go:109-116 | whatever fails, a pass over a registered object whose database exists issues no creation request, never records phase Created, and changes nothing but the role's members; its only possible errors are the failed connection, existence check or listing, and none occurs when those succeed |
| `PassProperties.DeletingWithoutFinalizerProvisions` | controllers/database_controller.go:94-109 | an object being deleted without the finalizer is provisioned like any other, and never gains the finalizer |
| `Scenarios.FreshDatabaseIsProvisioned` | controllers/database_controller.go:60-200 | a fresh object with one user, on a server holding only that user's login, with no failures: the pass issues eleven requests, in order, and ends with phase Created, a server holding exactly the database, the role, both logins and both members, and the one credential secret |
| `Scenarios.ConvergeEmptyRole` | controllers/database_controller.go:186-197 | an empty role is granted the owner, then the declared user |

## Quirks of the controller

The model follows the code, including these behaviours, each of which a
lemma states:

- **An object being deleted without the finalizer is provisioned.** The
  finalizer is appended only when the object is not being deleted (lines
  87-93) and released only when it carries it (lines 95-106). Any other
  object falls through to provisioning at line 109, and a missing database is
  even created (`PassProperties.DeletingWithoutFinalizerProvisions`).
- **A failed secret write is never retried.** The failure is logged and the
  pass returns no error (lines 151-155), before phase Created is recorded.
  The next pass finds the database and skips creation (lines 109-116), so it
  never writes the secret even when the secret store would now accept it
  (`PassProperties.SecretFailureIsNotRetried`).
- **An existing database never gets phase Created.** When the existence check
  finds the database (lines 115-116), only the role is converged; the phase is
  left as it was, so every later pass repeats the check
  (`PassProperties.ExistingDatabaseIsNotCreated`,
  `ProvisioningProperties.ProvisionExisting`).
- **`finalize` always returns nil** (lines 237-251). A failed secret delete
  or drop never holds back the release of the finalizer (`Reconciler.Finalize`,
  `ReconcilerProperties.DeletionFinalizes`).
- **Only the type `*` is refused.** The type switch (lines 75-83) connects for
  `postgres`, refuses `*`, and lets every other type through with the adapter
  left over from an earlier pass (`ReconcilerProperties.AdmissionFailures`,
  `ReconcilerProperties.Admission`).

## Left out

- Fetching the object (lines 65-69) is not a request in the trace. A failed
  fetch is the oracle's `fetchFails`, and "not found" is a world without a
  stored object. The two are told apart only as `client.IgnoreNotFound` does.
- Logging, the RBAC markers, `SetupWithManager` and the contexts have no
  observable effect on the pass, so they are not modelled.
- Type dispatch for types other than `postgres` and `*`: the pass goes on with
  the adapter left over from an earlier pass. That adapter fixed its role and
  database names when it was built (controllers/postgres/postgres.go:21-22),
  so its existence check, creation, listing, grants, revokes, database drop
  and role drop (controllers/postgres/postgres.go:42, 53, 98, 120, 131, 141,
  157-163) act on the earlier object's database and `<earlier>_admins` role.
  The model has one server view and does not tell the two apart. The lemmas
  that admit any type other than `*` (`PassProperties.ConvergesWhenAllSucceed`,
  `PassProperties.FirstPass`, `PassProperties.SecondPassIsQuiet` and the
  others built on `ReconcilerProperties.Admission`) therefore describe, for
  such a type, the role and database of the adapter in hand. The nil-adapter
  panic on a process's first pass is not modelled.
- `PassProperties.StatusOnly`: when the release update clears the last
  finalizer of an object being deleted, the API server removes the object.
  The model keeps the released object as last written (`Some(released)`), so
  this lemma describes the object the controller wrote, not whether the store
  still holds it.
- `ReconcilerProperties.DeletionReleases`: for the same reason, its
  conclusion `stored.Some?` and the finalizers it states are those of the
  object the controller wrote; once the last finalizer is gone, the API
  server no longer holds that object.
- Adapter requests are atomic: each one either takes full effect or none. The
  adapter's `CreateUser` and `DropUser` run three SQL statements each, and
  partial failures between them are not modelled.
- The schema that `CreateDatabase` creates when `Spec.Schema` is set
  (controllers/postgres/postgres.go:59-65) is not modelled. The server
  abstraction does not track schemas.
- Neither the SQL text, quoting nor the connection string is modelled.
  `GetHost`, which reads `PGHOST`, becomes the oracle's `host`. The password
  that `user.NewUser` generates becomes the oracle's `password`. Only
  `NewUser`'s possible failure is kept, as a request that can fail.
- The oracle decides success per request: a request with the same arguments
  gets the same answer throughout a pass. Transient failures that differ
  between two identical requests within one pass are not modelled.
- `finalize` reads the secret before deleting it and ignores only the read's
  error (line 235). The read fills in the secret that the delete at line 237
  targets, so a failed read sends the delete to an unnamed secret, and that
  delete fails. The model leaves out the read: a failing `DeleteSecret` in
  the oracle stands for this case as well.
- The revoke and grant loops are modelled as issuing one request per entry of
  the order-preserving difference between the listing and the desired users.
  This gives the same sequence of requests, because each loop decides from
  the listing alone and never from an earlier request's outcome.
- Role membership is simplified in two ways. `RoleUsers` joins `pg_user`,
  so it lists only the members that can log in
  (controllers/postgres/postgres.go:93-96); the model lists every member,
  that is, it takes every member to be a login. And the oracle alone decides
  whether a request succeeds, whatever the server holds: in PostgreSQL a
  grant to a missing user or on a missing role fails
  (controllers/postgres/postgres.go:120), while the model's grant succeeds
  unless the oracle fails it. So `PassProperties.ConvergesWhenAllSucceed`,
  `PassProperties.FirstPass` and `PassProperties.SecondPassIsQuiet` speak of
  declared users that are logins: a declared non-login user would be granted
  again on every pass, and an undeclared non-login member would never be
  revoked.
- Granting an existing member and revoking a non-member are treated as
  successful requests that change nothing.
- Error values are reduced to which request failed.
- Re-queueing, concurrent passes and the controller-runtime work queue are not
  modelled. Several passes are the sequential composition of `Reconcile`.

=== FILE: external.dfy ===
/**
 Everything a reconcile pass can ask of the outside world, and the abstract
 effect of each request on the database server behind the adapter.
 */
module External {
  import opened Lists
  import opened Resource

  /** A generated owner: the user name is set to the database's name after generation. */
  datatype User = User(username: string, password: string)

  /**
   The part of the database server one adapter observes and changes: whether
   its database exists, whether the `<name>_admins` role exists, the login
   users, and the members of that role in catalog order.
   */
  datatype Server = Server(dbExists: bool, roleExists: bool, logins: set<string>, members: seq<string>)

  /** One request issued during a pass, in the order the pass issues it. */
  datatype Call =
    | Connect                     // adapter construction: open and ping the server
    | Exists                      // does the database exist?
    | CreateDatabase
    | NewUser                     // password generation
    | CreateUser(user: User)      // owner role, its grant on the database, and the login user
    | RoleUsers                   // list the role's members
    | Grant(grantee: string)      // add a member to the role
    | Revoke(grantee: string)     // remove a member from the role
    | DropUser(username: string)  // drop the login user, then the role
    | DropDatabase
    | CreateSecret(secret: Secret)
    | DeleteSecret(key: SecretKey)
    | Update(resource: Database)  // persist the Database object

  predicate IsAdapterCall(c: Call) {
    c.Connect? || c.Exists? || c.CreateDatabase? || c.CreateUser? || c.RoleUsers?
    || c.Grant? || c.Revoke? || c.DropUser? || c.DropDatabase?
  }

  /** The calls of role convergence. */
  predicate IsMembershipCall(c: Call) {
    c.RoleUsers? || c.Grant? || c.Revoke?
  }

  /** Calls that bring something new into existence. */
  predicate IsCreation(c: Call) {
    c.CreateDatabase? || c.NewUser? || c.CreateUser? || c.CreateSecret?
  }

  /**
   The effect of a successful adapter call on the server. Each call is taken
   to succeed or fail as a whole. Granting an existing member and revoking a
   non-member change nothing; dropping the owner also drops the role and with
   it every membership.
   */
  function Perform(s: Server, c: Call): (r: Server)
    ensures c.DropUser? ==> r.members == [] && !r.roleExists && r.logins == s.logins - {c.username}
    ensures c.CreateUser? ==> r.roleExists && r.logins == s.logins + {c.user.username}
    ensures !c.Grant? && !c.Revoke? && !c.DropUser? ==> r.members == s.members
    ensures r.dbExists == (c.CreateDatabase? || (s.dbExists && !c.DropDatabase?))
    ensures !IsAdapterCall(c) ==> r == s
    ensures c.Connect? || c.Exists? || c.RoleUsers? ==> r == s
  {
    match c
    case CreateDatabase => s.(dbExists := true)
    case DropDatabase => s.(dbExists := false)
    case CreateUser(u) => s.(roleExists := true, logins := s.logins + {u.username})
    case DropUser(n) => s.(roleExists := false, logins := s.logins - {n}, members := [])
    case Grant(g) => if g in s.members then s else s.(members := s.members + [g])
    case Revoke(g) => s.(members := RemoveString(s.members, g))
    case _ => s
  }

  /** A grant adds its grantee to the role's members and a revoke removes it; no other member changes. */
  lemma PerformMembers(s: Server, c: Call)
    ensures c.Grant? ==> forall x :: x in Perform(s, c).members <==> x in s.members || x == c.grantee
    ensures c.Revoke? ==> forall x :: x in Perform(s, c).members <==> x in s.members && x != c.grantee
  {
  }
}

=== FILE: lists.dfy ===
/**
 The string-slice helpers of the database controller: a linear membership
 test, the removal of every occurrence of one value, and the order-preserving
 difference the grant/revoke loops compute.
 */
module Lists {

  /** `a` can be obtained from `b` by deleting elements; the rest keep their order. */
  ghost predicate Subsequence(a: seq<string>, b: seq<string>)
    decreases |b|
  {
    if a == [] then true
    else if b == [] then false
    else if a[0] == b[0] then Subsequence(a[1..], b[1..])
    else Subsequence(a, b[1..])
  }

  /** Linear search that stops at the first match. */
  function Contains(list: seq<string>, s: string): (found: bool)
    ensures found <==> s in list
  {
    if list == [] then false
    else if list[0] == s then true
    else Contains(list[1..], s)
  }

  /** The slice without any occurrence of `s`; every other entry is kept, in order. */
  function RemoveString(slice: seq<string>, s: string): (result: seq<string>)
    ensures s !in result
    ensures forall x :: x in result <==> x in slice && x != s
  {
    if slice == [] then []
    else
      assert slice == [slice[0]] + slice[1..];
      if slice[0] == s then RemoveString(slice[1..], s)
      else [slice[0]] + RemoveString(slice[1..], s)
  }

  /**
   The entries of `list` that `reference` does not contain, in their order in
   `list` and with their multiplicity in `list`.
   */
  function Missing(list: seq<string>, reference: seq<string>): (result: seq<string>)
    ensures forall x :: x in result <==> x in list && x !in reference
  {
    if list == [] then []
    else
      assert list == [list[0]] + list[1..];
      if Contains(reference, list[0]) then Missing(list[1..], reference)
      else [list[0]] + Missing(list[1..], reference)
  }

  /** Removal keeps every other entry with its multiplicity: only the copies of `s` are gone. */
  lemma {:induction false} RemoveStringCounts(slice: seq<string>, s: string)
    ensures multiset(RemoveString(slice, s)) == multiset(slice)[s := 0]
  {
    if slice != [] {
      RemoveStringCounts(slice[1..], s);
      assert slice == [slice[0]] + slice[1..];
    }
  }

  /** Removal keeps the other entries in their order. */
  lemma {:induction false} RemoveStringKeepsOrder(slice: seq<string>, s: string)
    ensures Subsequence(RemoveString(slice, s), slice)
  {
    if slice != [] {
      RemoveStringKeepsOrder(slice[1..], s);
    }
  }

  /** The missing entries keep their multiplicity in `list`. */
  lemma {:induction false} MissingCounts(list: seq<string>, reference: seq<string>)
    ensures forall x :: multiset(Missing(list, reference))[x] == if x in reference then 0 else multiset(list)[x]
  {
    if list != [] {
      MissingCounts(list[1..], reference);
      assert list == [list[0]] + list[1..];
    }
  }

  /** The missing entries keep their order in `list`. */
  lemma {:induction false} MissingKeepsOrder(list: seq<string>, reference: seq<string>)
    ensures Subsequence(Missing(list, reference), list)
  {
    if list != [] {
      MissingKeepsOrder(list[1..], reference);
    }
  }

  /** Removing a value that is absent leaves the slice as it was. */
  lemma {:induction false} RemoveStringAbsent(slice: seq<string>, s: string)
    requires s !in slice
    ensures RemoveString(slice, s) == slice
  {
    if slice != [] {
      RemoveStringAbsent(slice[1..], s);
    }
  }

  /** A second removal of the same value changes nothing. */
  lemma RemoveStringIdempotent(slice: seq<string>, s: string)
    ensures RemoveString(RemoveString(slice, s), s) == RemoveString(slice, s)
  {
    RemoveStringAbsent(RemoveString(slice, s), s);
  }

  /** Removal distributes over concatenation, so the relative order of the kept entries is that of the input. */
  lemma {:induction false} RemoveStringAppend(a: seq<string>, b: seq<string>, s: string)
    ensures RemoveString(a + b, s) == RemoveString(a, s) + RemoveString(b, s)
  {
    if a != [] {
      assert (a + b)[1..] == a[1..] + b;
      RemoveStringAppend(a[1..], b, s);
    } else {
      assert a + b == b;
    }
  }

  /** Against an empty reference, everything is missing. */
  lemma {:induction false} MissingFromEmpty(list: seq<string>)
    ensures Missing(list, []) == list
  {
    if list != [] {
      MissingFromEmpty(list[1..]);
      assert list == [list[0]] + list[1..];
    }
  }

  /** When every entry of `list` is in `reference`, nothing is missing. */
  lemma MissingNone(list: seq<string>, reference: seq<string>)
    requires forall x :: x in list ==> x in reference
    ensures Missing(list, reference) == []
  {
  }
}

=== FILE: passes.dfy ===
/**
 Properties of whole reconcile passes: what a pass may do to the stored
 object, that the finalizer is in place before provisioning, convergence
 when everything succeeds, the quiet second pass, and the quirks of the
 controller: a secret failure that is never retried, an existing database
 that never becomes Created, and a deleting object that is provisioned.
 */
module PassProperties {
  import opened Lists
  import opened Resource
  import opened External
  import opened Reconciler
  import opened ReconcilerProperties
  import opened ProvisioningProperties

  /** The requests of provisioning and convergence. */
  predicate IsProvisioningCall(c: Call) {
    c.Exists? || IsCreation(c) || IsMembershipCall(c)
  }

  /**
   What the finalizer protocol may store: nothing new, the object with phase
   Created, the registered object (with or without phase Created) when it is
   not being deleted, or the released object when it is.
   */
  lemma ProtectStored(p: Pass, d: Database, o: Oracle)
    ensures var s := Protect(p, d, o).pass.world.stored;
      var registered := d.(finalizers := d.finalizers + [FinalizerName]);
      var released := d.(finalizers := RemoveString(d.finalizers, FinalizerName), phase := PhaseTerminating);
      || s == p.world.stored
      || s == Some(d.(phase := PhaseCreated))
      || (!d.deleting && (s == Some(registered) || s == Some(registered.(phase := PhaseCreated))))
      || (d.deleting && s == Some(released))
  {
    if !d.deleting && FinalizerName !in d.finalizers {
      RegistrationStored(p, d, o);
    } else if d.deleting && FinalizerName in d.finalizers {
      ReleaseStored(p, d, o);
    } else {
      assert Protect(p, d, o) == Provision(p, d, o);
      ProvisionStored(p, d, o);
    }
  }

  lemma RegistrationStored(p: Pass, d: Database, o: Oracle)
    requires !d.deleting && FinalizerName !in d.finalizers
    ensures var s := Protect(p, d, o).pass.world.stored;
      var registered := d.(finalizers := d.finalizers + [FinalizerName]);
      s == p.world.stored || s == Some(registered) || s == Some(registered.(phase := PhaseCreated))
  {
    var registered := d.(finalizers := d.finalizers + [FinalizerName]);
    var p1 := Issue(p, Update(registered), o);
    if Succeeds(o, Update(registered)) {
      assert Protect(p, d, o) == Provision(p1, registered, o);
      ProvisionStored(p1, registered, o);
    } else {
      assert Protect(p, d, o).pass == p1;
    }
  }

  lemma ReleaseStored(p: Pass, d: Database, o: Oracle)
    requires d.deleting && FinalizerName in d.finalizers
    ensures var s := Protect(p, d, o).pass.world.stored;
      s == p.world.stored || s == Some(d.(finalizers := RemoveString(d.finalizers, FinalizerName), phase := PhaseTerminating))
  {
    FinalizeSpec(p, d, o);
  }

  /**
   A pass only ever changes the object's status phase and its finalizers:
   the phase it writes is Created or Terminating, the finalizer is either
   added once or every copy of it removed, a Terminating object is left as
   it was, and Terminating is written only for an object being deleted.
   */
  lemma StatusOnly(w: World, o: Oracle)
    requires w.stored.Some?
    ensures var d := w.stored.value; var s := Reconcile(w, o).pass.world.stored;
      && s.Some?
      && var x := s.value;
      && x == d.(finalizers := x.finalizers, phase := x.phase)
      && (x.phase == d.phase || x.phase == PhaseCreated || x.phase == PhaseTerminating)
      && (x.finalizers == d.finalizers || x.finalizers == d.finalizers + [FinalizerName]
          || x.finalizers == RemoveString(d.finalizers, FinalizerName))
      && (x.phase == PhaseTerminating && d.phase != PhaseTerminating ==> d.deleting)
      && (d.phase == PhaseTerminating ==> x == d)
  {
    var d := w.stored.value;
    if !o.fetchFails && Admitted(d, o) {
      Admission(w, o);
      ProtectStored(Pass(Preamble(d), w), d, o);
    }
  }

  /**
   For an object not being deleted, every provisioning or convergence
   request comes after the finalizer is in place: either the object already
   carried it, or its registration was persisted successfully right after
   the preamble.
   */
  lemma FinalizerPrecedesProvisioning(w: World, o: Oracle)
    requires !o.fetchFails && w.stored.Some? && Admitted(w.stored.value, o) && !w.stored.value.deleting
    ensures var d := w.stored.value; var t := Reconcile(w, o).pass.trace; var k := |Preamble(d)|;
      var registered := d.(finalizers := d.finalizers + [FinalizerName]);
      forall i :: 0 <= i < |t| && IsProvisioningCall(t[i]) ==>
        || FinalizerName in d.finalizers
        || (k < i && t[k] == Update(registered) && Succeeds(o, Update(registered)))
  {
    var d := w.stored.value;
    Admission(w, o);
    if FinalizerName !in d.finalizers {
      RegistrationPrecedes(Pass(Preamble(d), w), d, o);
    }
  }

  /**
   The finalizer is appended only when absent: an object not being deleted
   that already carries it goes straight from the preamble to provisioning,
   with no update in between, and keeps its finalizers.
   */
  lemma RegisteredGoesToProvisioning(w: World, o: Oracle)
    requires !o.fetchFails && w.stored.Some? && Admitted(w.stored.value, o)
    requires !w.stored.value.deleting && FinalizerName in w.stored.value.finalizers
    ensures var d := w.stored.value; var r := Reconcile(w, o);
      && r == Provision(Pass(Preamble(d), w), d, o)
      && r.pass.world.stored.Some? && r.pass.world.stored.value.finalizers == d.finalizers
  {
    var d := w.stored.value;
    Admission(w, o);
    assert Protect(Pass(Preamble(d), w), d, o) == Provision(Pass(Preamble(d), w), d, o);
    ProvisionStored(Pass(Preamble(d), w), d, o);
  }

  /** After a prefix without provisioning requests, registration comes before any of them. */
  lemma RegistrationPrecedes(p: Pass, d: Database, o: Oracle)
    requires !d.deleting && FinalizerName !in d.finalizers
    requires forall i :: 0 <= i < |p.trace| ==> !IsProvisioningCall(p.trace[i])
    ensures var t := Protect(p, d, o).pass.trace; var k := |p.trace|;
      var registered := d.(finalizers := d.finalizers + [FinalizerName]);
      forall i :: 0 <= i < |t| && IsProvisioningCall(t[i]) ==>
        k < i && t[k] == Update(registered) && Succeeds(o, Update(registered))
  {
    var registered := d.(finalizers := d.finalizers + [FinalizerName]);
    var p1 := Issue(p, Update(registered), o);
    if Succeeds(o, Update(registered)) {
      assert Protect(p, d, o) == Provision(p1, registered, o);
      PrefixFree(Provision(p1, registered, o).pass.trace, p1.trace);
    } else {
      assert Protect(p, d, o) == Outcome(p1, Some(CallFailed(Update(registered))));
    }
  }

  /** The entries of a trace that fall inside a prefix free of provisioning requests are not provisioning requests. */
  lemma PrefixFree(t: seq<Call>, q: seq<Call>)
    requires |q| <= |t| && t[..|q|] == q
    requires forall i :: 0 <= i < |q| - 1 ==> !IsProvisioningCall(q[i])
    requires |q| > 0 && q[|q| - 1].Update?
    ensures forall i :: 0 <= i < |t| && IsProvisioningCall(t[i]) ==> |q| <= i
  {
    forall i | 0 <= i < |q| ensures t[i] == q[i] {
      assert t[..|q|][i] == t[i];
    }
  }

  /**
   With every request succeeding, a pass over an object that is not being
   finalized reports no error and leaves the role with exactly the owner and
   the declared users; the database exists afterwards unless the phase was
   already Created and it was missing.
   */
  lemma ConvergesWhenAllSucceed(w: World, o: Oracle)
    requires !o.fetchFails && o.failing == {} && w.stored.Some?
    requires w.stored.value.phase != PhaseTerminating && w.stored.value.dbType != WildcardType
    requires !(w.stored.value.deleting && FinalizerName in w.stored.value.finalizers)
    ensures var d := w.stored.value; var r := Reconcile(w, o);
      && r.err == None
      && (forall x :: x in r.pass.world.server.members <==> x == d.name || x in d.users)
      && (r.pass.world.server.dbExists <==> w.server.dbExists || d.phase != PhaseCreated)
  {
    var d := w.stored.value;
    Admission(w, o);
    var p := Pass(Preamble(d), w);
    if !Contains(d.finalizers, FinalizerName) && !d.deleting {
      RegistrationConverges(p, d, o);
    } else {
      assert Protect(p, d, o) == Provision(p, d, o);
      ProvisionAllSucceed(p, d, o);
    }
  }

  /** Registration followed by provisioning, every request succeeding: no error, role converged. */
  lemma RegistrationConverges(p: Pass, d: Database, o: Oracle)
    requires o.failing == {} && !d.deleting && FinalizerName !in d.finalizers
    ensures var r := Protect(p, d, o);
      && r.err == None
      && RoleConverged(r.pass.world.server, d)
      && (r.pass.world.server.dbExists <==> p.world.server.dbExists || d.phase != PhaseCreated)
  {
    var registered := d.(finalizers := d.finalizers + [FinalizerName]);
    var p1 := Issue(p, Update(registered), o);
    assert Protect(p, d, o) == Provision(p1, registered, o);
    assert Desired(registered) == Desired(d);
    ProvisionAllSucceed(p1, registered, o);
  }

  /**
   The state a successful first pass leaves for an object not being
   deleted: the object carries the finalizer, keeps its spec and is not
   Terminating, the role has exactly the desired members, and the database
   exists unless the phase is Created.
   */
  lemma FirstPass(w: World, o: Oracle)
    requires !o.fetchFails && o.failing == {} && w.stored.Some?
    requires w.stored.value.phase != PhaseTerminating && w.stored.value.dbType != WildcardType
    requires !w.stored.value.deleting
    ensures var d := w.stored.value; var w1 := Reconcile(w, o).pass.world;
      && w1.stored.Some?
      && var x := w1.stored.value;
      && x == d.(finalizers := x.finalizers, phase := x.phase)
      && FinalizerName in x.finalizers
      && (x.phase == d.phase || x.phase == PhaseCreated)
      && (x.phase != PhaseCreated ==> w1.server.dbExists)
      && RoleConverged(w1.server, x)
  {
    Admission(w, o);
    ProtectAllSucceed(Pass(Preamble(w.stored.value), w), w.stored.value, o);
  }

  /** The finalizer protocol for an object not being deleted, with every request succeeding. */
  lemma ProtectAllSucceed(p: Pass, d: Database, o: Oracle)
    requires o.failing == {} && !d.deleting && p.world.stored == Some(d)
    ensures var w1 := Protect(p, d, o).pass.world;
      && w1.stored.Some?
      && var x := w1.stored.value;
      && x == d.(finalizers := x.finalizers, phase := x.phase)
      && FinalizerName in x.finalizers
      && (x.phase == d.phase || x.phase == PhaseCreated)
      && (x.phase != PhaseCreated ==> w1.server.dbExists)
      && RoleConverged(w1.server, x)
  {
    if FinalizerName in d.finalizers {
      assert Protect(p, d, o) == Provision(p, d, o);
      ProvisionFirstPass(p, d, o);
    } else {
      RegistrationAllSucceed(p, d, o);
    }
  }

  /** Registration of the finalizer followed by provisioning, with every request succeeding. */
  lemma RegistrationAllSucceed(p: Pass, d: Database, o: Oracle)
    requires o.failing == {} && !d.deleting && FinalizerName !in d.finalizers
    ensures var registered := d.(finalizers := d.finalizers + [FinalizerName]);
      var w1 := Protect(p, d, o).pass.world;
      && (w1.stored == Some(registered) || w1.stored == Some(registered.(phase := PhaseCreated)))
      && (d.phase != PhaseCreated ==> w1.server.dbExists)
      && RoleConverged(w1.server, registered)
  {
    var registered := d.(finalizers := d.finalizers + [FinalizerName]);
    var p1 := Issue(p, Update(registered), o);
    assert Protect(p, d, o) == Provision(p1, registered, o);
    ProvisionFirstPass(p1, registered, o);
  }

  /** Provisioning with every request succeeding keeps the object or records Created, and converges the role. */
  lemma ProvisionFirstPass(p: Pass, d: Database, o: Oracle)
    requires o.failing == {} && p.world.stored == Some(d)
    ensures var w1 := Provision(p, d, o).pass.world;
      && (w1.stored == Some(d) || w1.stored == Some(d.(phase := PhaseCreated)))
      && (d.phase != PhaseCreated ==> w1.server.dbExists)
      && RoleConverged(w1.server, d)
  {
    ProvisionAllSucceed(p, d, o);
    ProvisionStored(p, d, o);
  }


  /**
   Idempotence: once the object carries the finalizer, its phase is Created
   and its role has the desired members, a pass lists the members and
   changes nothing.
   */
  lemma QuietWhenConverged(w: World, o: Oracle)
    requires !o.fetchFails && w.stored.Some? && Admitted(w.stored.value, o) && Succeeds(o, RoleUsers)
    requires !w.stored.value.deleting && FinalizerName in w.stored.value.finalizers
    requires w.stored.value.phase == PhaseCreated && RoleConverged(w.server, w.stored.value)
    ensures Reconcile(w, o) == Outcome(Pass(Preamble(w.stored.value) + [RoleUsers], w), None)
  {
    Admission(w, o);
    QuietConverge(Pass(Preamble(w.stored.value), w), w.stored.value, o);
  }

  /**
   A second pass after a fully successful first one changes nothing and
   reports no error: it only connects, checks for the database while the
   phase is not Created, and lists the members.
   */
  lemma SecondPassIsQuiet(w: World, o: Oracle)
    requires !o.fetchFails && o.failing == {} && w.stored.Some?
    requires w.stored.value.phase != PhaseTerminating && w.stored.value.dbType != WildcardType
    requires !w.stored.value.deleting
    ensures var w1 := Reconcile(w, o).pass.world; var r2 := Reconcile(w1, o);
      && w1.stored.Some?
      && r2.err == None
      && r2.pass.world == w1
      && r2.pass.trace == Preamble(w.stored.value)
                          + (if w1.stored.value.phase == PhaseCreated then [] else [Exists]) + [RoleUsers]
  {
    var w1 := Reconcile(w, o).pass.world;
    FirstPass(w, o);
    var x := w1.stored.value;
    Admission(w1, o);
    QuietProtect(Pass(Preamble(x), w1), x, o);
  }

  /**
   The finalizer protocol over a registered object whose role is converged,
   and whose database exists unless it is Created, only checks for the
   database (when not Created) and lists the members.
   */
  lemma QuietProtect(p: Pass, x: Database, o: Oracle)
    requires Succeeds(o, Exists) && Succeeds(o, RoleUsers)
    requires !x.deleting && FinalizerName in x.finalizers && RoleConverged(p.world.server, x)
    requires x.phase != PhaseCreated ==> p.world.server.dbExists
    ensures Protect(p, x, o) ==
      Outcome(Pass(p.trace + (if x.phase == PhaseCreated then [] else [Exists]) + [RoleUsers], p.world), None)
  {
    assert Protect(p, x, o) == Provision(p, x, o);
    if x.phase == PhaseCreated {
      assert Provision(p, x, o) == Converge(p, x, o);
      QuietConverge(p, x, o);
    } else {
      assert Provision(p, x, o) == Converge(Issue(p, Exists, o), x, o);
      QuietConverge(Issue(p, Exists, o), x, o);
    }
  }

  /**
   Quirk of the controller: a failed secret write is only logged, and the
   pass returns nil before recording Created. So when only the credential
   secret fails, the first pass creates the database and the owner yet ends
   without error and without recording phase Created. Any later pass, even
   one whose secret write would succeed, finds the database, skips creation
   for good, and so never writes the secret.
   */
  lemma SecretFailureIsNotRetried(w: World, o: Oracle, o2: Oracle)
    requires !o.fetchFails && !o2.fetchFails && w.stored.Some?
    requires var d := w.stored.value;
      && d.phase != PhaseCreated && d.phase != PhaseTerminating && d.dbType != WildcardType
      && !d.deleting && FinalizerName in d.finalizers && !w.server.dbExists
      && o.failing == {CreateSecret(CredentialSecret(d, o.host, d.name, o.password))}
    ensures var w1 := Reconcile(w, o).pass.world; var r2 := Reconcile(w1, o2); var t2 := r2.pass.trace;
      && Reconcile(w, o).err == None
      && w1.stored == w.stored && w1.secrets == w.secrets && w1.server.dbExists
      && r2.pass.world.stored == w.stored && r2.pass.world.secrets == w.secrets
      && (forall i :: 0 <= i < |t2| ==> !IsCreation(t2[i]))
      && (Succeeds(o2, Connect) && Succeeds(o2, Exists) && Succeeds(o2, RoleUsers) ==> r2.err == None)
  {
    SecretFailureFirstPass(w, o);
    ExistingDatabaseIsNotCreated(Reconcile(w, o).pass.world, o2);
  }

  /** The first pass of the secret failure: database and owner created, nothing recorded, no error. */
  lemma SecretFailureFirstPass(w: World, o: Oracle)
    requires !o.fetchFails && w.stored.Some?
    requires var d := w.stored.value;
      && d.phase != PhaseCreated && d.phase != PhaseTerminating && d.dbType != WildcardType
      && !d.deleting && FinalizerName in d.finalizers && !w.server.dbExists
      && o.failing == {CreateSecret(CredentialSecret(d, o.host, d.name, o.password))}
    ensures var r := Reconcile(w, o);
      && r.err == None
      && r.pass.world.stored == w.stored && r.pass.world.secrets == w.secrets && r.pass.world.server.dbExists
  {
    var d := w.stored.value;
    Admission(w, o);
    var p := Pass(Preamble(d), w);
    var p1 := Issue(p, Exists, o);
    assert Protect(p, d, o) == Provision(p, d, o);
    assert Provision(p, d, o) == Create(p1, d, o);
    CreateSecretFails(p1, d, o);
  }

  /** Creation in which only the secret fails: the database exists, nothing is recorded, no error. */
  lemma CreateSecretFails(p: Pass, d: Database, o: Oracle)
    requires o.failing == {CreateSecret(CredentialSecret(d, o.host, d.name, o.password))}
    ensures var r := Create(p, d, o);
      && r.err == None
      && r.pass.world.stored == p.world.stored && r.pass.world.secrets == p.world.secrets
      && r.pass.world.server.dbExists
  {
  }

  /**
   Quirk of the controller: finding the database already there, the
   controller neither creates it nor records Created. A pass over an object
   that carries the finalizer, is not Created and whose database exists
   issues no creation request and changes nothing but the role's members,
   whatever fails: in particular the phase is never set to Created. Its
   error, if any, is the failed connection, existence check or listing.
   */
  lemma ExistingDatabaseIsNotCreated(w: World, o: Oracle)
    requires !o.fetchFails && w.stored.Some?
    requires var d := w.stored.value;
      && d.phase != PhaseCreated && d.phase != PhaseTerminating && d.dbType != WildcardType
      && !d.deleting && FinalizerName in d.finalizers && w.server.dbExists
    ensures var r := Reconcile(w, o); var t := r.pass.trace;
      && r.pass.world == w.(server := w.server.(members := r.pass.world.server.members))
      && (forall i :: 0 <= i < |t| ==> !IsCreation(t[i]))
      && (r.err == None || r.err == Some(CallFailed(Connect))
          || r.err == Some(CallFailed(Exists)) || r.err == Some(CallFailed(RoleUsers)))
      && (Succeeds(o, Connect) && Succeeds(o, Exists) && Succeeds(o, RoleUsers) ==> r.err == None)
  {
    var d := w.stored.value;
    if Admitted(d, o) {
      Admission(w, o);
      var p := Pass(Preamble(d), w);
      ExistingDatabaseConverges(p, d, o);
      PreambleCreatesNothing(Protect(p, d, o).pass.trace, d);
    } else {
      assert Reconcile(w, o) == Outcome(Pass([Connect], w), Some(CallFailed(Connect)));
    }
  }

  /**
   With the finalizer in place, the phase not Created and the database
   existing, the finalizer protocol goes straight to the existence check and
   convergence: nothing is created, only the role's members change, and the
   only errors are the failed check or listing.
   */
  lemma ExistingDatabaseConverges(p: Pass, d: Database, o: Oracle)
    requires d.phase != PhaseCreated && !d.deleting && FinalizerName in d.finalizers && p.world.server.dbExists
    ensures var r := Protect(p, d, o); var t := r.pass.trace;
      && r.pass.world == p.world.(server := p.world.server.(members := r.pass.world.server.members))
      && (forall i :: |p.trace| <= i < |t| ==> !IsCreation(t[i]))
      && (r.err == None || r.err == Some(CallFailed(Exists)) || r.err == Some(CallFailed(RoleUsers)))
      && (Succeeds(o, Exists) && Succeeds(o, RoleUsers) ==> r.err == None)
  {
    assert Protect(p, d, o) == Provision(p, d, o);
    if Succeeds(o, Exists) {
      assert Provision(p, d, o) == Converge(Issue(p, Exists, o), d, o);
    }
    ProvisionExisting(p, d, o);
  }

  /** The preamble at the head of a trace holds no creation request. */
  lemma PreambleCreatesNothing(t: seq<Call>, d: Database)
    requires |Preamble(d)| <= |t| && t[..|Preamble(d)|] == Preamble(d)
    ensures forall i :: 0 <= i < |Preamble(d)| ==> !IsCreation(t[i])
  {
    forall i | 0 <= i < |Preamble(d)| ensures !IsCreation(t[i]) {
      assert t[i] == t[..|Preamble(d)|][i];
    }
  }

  /**
   Quirk of the controller: the finalizer is appended only when
   the object is not being deleted, and released only when it is, so an
   object being deleted that does not carry the finalizer falls through to
   provisioning like any other and is never given the finalizer; a missing
   database is even created.
   */
  lemma DeletingWithoutFinalizerProvisions(w: World, o: Oracle)
    requires !o.fetchFails && w.stored.Some? && Admitted(w.stored.value, o)
    requires w.stored.value.deleting && FinalizerName !in w.stored.value.finalizers
    ensures var d := w.stored.value; var r := Reconcile(w, o); var t := r.pass.trace; var k := |Preamble(d)|;
      && r == Provision(Pass(Preamble(d), w), d, o)
      && (d.phase != PhaseCreated && Succeeds(o, Exists) && !w.server.dbExists ==> |t| > k + 1 && t[k + 1] == CreateDatabase)
      && r.pass.world.stored.Some? && FinalizerName !in r.pass.world.stored.value.finalizers
  {
    var d := w.stored.value;
    Admission(w, o);
    ProvisionCreatesOnlyWhenMissing(Pass(Preamble(d), w), d, o);
    ProvisionStored(Pass(Preamble(d), w), d, o);
  }
}

=== FILE: properties.dfy ===
/**
 Properties of the reconcile pass that span several of its layers: the
 order of provisioning, the finalizer protocol, convergence, idempotence,
 and the behaviour of the pass on the object's status.
 */
module ReconcilerProperties {
  import opened Lists
  import opened Resource
  import opened External
  import opened Reconciler

  /**
   The object clears the checks ahead of the finalizer protocol: it is not
   Terminating, its type is not the wildcard, and for the PostgreSQL type the
   adapter connects.
   */
  predicate Admitted(d: Database, o: Oracle) {
    d.phase != PhaseTerminating && d.dbType != WildcardType && (d.dbType == PostgresType ==> Succeeds(o, Connect))
  }

  /** The requests issued ahead of the finalizer protocol. */
  function Preamble(d: Database): seq<Call> {
    if d.dbType == PostgresType then [Connect] else []
  }

  /** A fetch failure is reported; a missing object is not an error; neither issues anything. */
  lemma FetchOutcome(w: World, o: Oracle)
    ensures o.fetchFails ==> Reconcile(w, o) == Outcome(Pass([], w), Some(FetchFailed))
    ensures !o.fetchFails && w.stored == None ==> Reconcile(w, o) == Outcome(Pass([], w), None)
  {
  }

  /** A Terminating object is left alone: no request, no change, no error. */
  lemma TerminatingIsNoOp(w: World, o: Oracle)
    requires !o.fetchFails && w.stored.Some? && w.stored.value.phase == PhaseTerminating
    ensures Reconcile(w, o) == Outcome(Pass([], w), None)
  {
  }

  /**
   Adapter selection: only the literal wildcard type is refused, before any
   request; a PostgreSQL adapter that cannot connect fails the pass after
   the connection attempt alone.
   */
  lemma AdmissionFailures(w: World, o: Oracle)
    requires !o.fetchFails && w.stored.Some? && w.stored.value.phase != PhaseTerminating
    ensures var d := w.stored.value; var r := Reconcile(w, o);
      && (r.err == Some(Unsupported) <==> d.dbType == WildcardType)
      && (d.dbType == WildcardType ==> r.pass == Pass([], w))
      && (d.dbType == PostgresType && !Succeeds(o, Connect) ==>
            r == Outcome(Pass([Connect], w), Some(CallFailed(Connect))))
  {
    var d := w.stored.value;
    if Admitted(d, o) {
      Admission(w, o);
      ProtectEndsWithFatal(Pass(Preamble(d), w), d, o);
    }
  }

  /** An admitted object goes on to the finalizer protocol after its preamble, with the world untouched. */
  lemma Admission(w: World, o: Oracle)
    requires !o.fetchFails && w.stored.Some? && Admitted(w.stored.value, o)
    ensures Reconcile(w, o) == Protect(Pass(Preamble(w.stored.value), w), w.stored.value, o)
  {
  }

  /**
   The creation sequence: the database, the generated owner named after the
   database, the credential secret, the phase update, then the listing of
   convergence. Each request is issued exactly when all before it succeeded.
   */
  lemma CreationSequence(p: Pass, d: Database, o: Oracle)
    ensures var t := Create(p, d, o).pass.trace; var n := |p.trace|;
      var owner := User(d.name, o.password);
      var secret := CredentialSecret(d, o.host, d.name, o.password);
      var created := d.(phase := PhaseCreated);
      && |t| > n && t[n] == CreateDatabase
      && (|t| > n + 1 <==> Succeeds(o, CreateDatabase))
      && (|t| > n + 1 ==> t[n + 1] == NewUser)
      && (|t| > n + 2 <==> |t| > n + 1 && Succeeds(o, NewUser))
      && (|t| > n + 2 ==> t[n + 2] == CreateUser(owner))
      && (|t| > n + 3 <==> |t| > n + 2 && Succeeds(o, CreateUser(owner)))
      && (|t| > n + 3 ==> t[n + 3] == CreateSecret(secret))
      && (|t| > n + 4 <==> |t| > n + 3 && Succeeds(o, CreateSecret(secret)))
      && (|t| > n + 4 ==> t[n + 4] == Update(created))
      && (|t| > n + 5 <==> |t| > n + 4 && Succeeds(o, Update(created)))
      && (|t| > n + 5 ==> t[n + 5] == RoleUsers)
  {
    var owner := User(d.name, o.password);
    var p1 := Issue(p, CreateDatabase, o);
    var p2 := Issue(p1, NewUser, o);
    var p3 := Issue(p2, CreateUser(owner), o);
    if !Succeeds(o, CreateDatabase) {
      assert Create(p, d, o).pass == p1;
    } else if !Succeeds(o, NewUser) {
      assert Create(p, d, o).pass == p2;
    } else if !Succeeds(o, CreateUser(owner)) {
      assert Create(p, d, o).pass == p3;
    } else {
      assert Create(p, d, o) == Publish(p3, d, owner, o);
      PublishSequence(p3, d, owner, o);
    }
  }

  /**
   Publishing issues the secret, then the phase update, then the listing of
   convergence, each exactly when all before it succeeded.
   */
  lemma PublishSequence(p: Pass, d: Database, owner: User, o: Oracle)
    ensures var t := Publish(p, d, owner, o).pass.trace; var n := |p.trace|;
      var secret := CredentialSecret(d, o.host, owner.username, owner.password);
      var created := d.(phase := PhaseCreated);
      && (|t| > n + 1 <==> Succeeds(o, CreateSecret(secret)))
      && (|t| > n + 1 ==> t[n + 1] == Update(created))
      && (|t| > n + 2 <==> |t| > n + 1 && Succeeds(o, Update(created)))
      && (|t| > n + 2 ==> t[n + 2] == RoleUsers)
  {
    var secret := CreateSecret(CredentialSecret(d, o.host, owner.username, owner.password));
    var created := d.(phase := PhaseCreated);
    var p2 := Issue(Issue(p, secret, o), Update(created), o);
    if Succeeds(o, secret) && !Succeeds(o, Update(created)) {
      assert Publish(p, d, owner, o).pass == p2;
    } else if Succeeds(o, secret) {
      assert Publish(p, d, owner, o) == Converge(p2, created, o);
    }
  }

  /**
   A failed credential secret ends creation quietly: the pass stops right
   after the secret request, reports no error, and the stored object is
   untouched.
   */
  lemma CreationSecretFailure(p: Pass, d: Database, o: Oracle)
    ensures var r := Create(p, d, o); var n := |p.trace|;
      |r.pass.trace| == n + 4 ==> r.err == None && r.pass.world.stored == p.world.stored
  {
    var owner := User(d.name, o.password);
    var p1 := Issue(p, CreateDatabase, o);
    var p2 := Issue(p1, NewUser, o);
    var p3 := Issue(p2, CreateUser(owner), o);
    if !Succeeds(o, CreateDatabase) {
      assert Create(p, d, o).pass == p1;
    } else if !Succeeds(o, NewUser) {
      assert Create(p, d, o).pass == p2;
    } else if !Succeeds(o, CreateUser(owner)) {
      assert Create(p, d, o).pass == p3;
    } else {
      assert Create(p, d, o) == Publish(p3, d, owner, o);
      assert p3.world.stored == p.world.stored;
      PublishSequence(p3, d, owner, o);
    }
  }

  /**
   Once the phase update of creation has succeeded, the object stored is the
   one with phase Created, the database and the owner exist, and the secret
   is written.
   */
  lemma CreationCompleted(p: Pass, d: Database, o: Oracle)
    ensures var r := Create(p, d, o); var n := |p.trace|;
      var secret := CredentialSecret(d, o.host, d.name, o.password);
      |r.pass.trace| > n + 5 ==>
        && r.pass.world.stored == Some(d.(phase := PhaseCreated))
        && r.pass.world.secrets == p.world.secrets[secret.key := secret]
        && r.pass.world.server.dbExists && d.name in r.pass.world.server.logins
  {
    var owner := User(d.name, o.password);
    var p1 := Issue(p, CreateDatabase, o);
    var p2 := Issue(p1, NewUser, o);
    var p3 := Issue(p2, CreateUser(owner), o);
    if !Succeeds(o, CreateDatabase) {
      assert Create(p, d, o).pass == p1;
    } else if !Succeeds(o, NewUser) {
      assert Create(p, d, o).pass == p2;
    } else if !Succeeds(o, CreateUser(owner)) {
      assert Create(p, d, o).pass == p3;
    } else {
      assert Create(p, d, o) == Publish(p3, d, owner, o);
      assert p3.world.server.dbExists && d.name in p3.world.server.logins;
      PublishCompleted(p3, d, owner, o);
    }
  }

  /** Once the Created update succeeds, the object is stored as Created and the secret is written. */
  lemma PublishCompleted(p: Pass, d: Database, owner: User, o: Oracle)
    ensures var r := Publish(p, d, owner, o); var n := |p.trace|;
      var secret := CredentialSecret(d, o.host, owner.username, owner.password);
      |r.pass.trace| > n + 2 ==>
        && r.pass.world.stored == Some(d.(phase := PhaseCreated))
        && r.pass.world.secrets == p.world.secrets[secret.key := secret]
        && r.pass.world.server.dbExists == p.world.server.dbExists
        && r.pass.world.server.logins == p.world.server.logins
  {
    var secret := CredentialSecret(d, o.host, owner.username, owner.password);
    var created := d.(phase := PhaseCreated);
    if !Succeeds(o, CreateSecret(secret)) {
    } else if !Succeeds(o, Update(created)) {
      var p2 := Issue(Issue(p, CreateSecret(secret), o), Update(created), o);
      assert Publish(p, d, owner, o) == Outcome(p2, Some(CallFailed(Update(created))));
    } else {
      var p2 := Issue(Issue(p, CreateSecret(secret), o), Update(created), o);
      assert p2.world == p.world.(stored := Some(created), secrets := p.world.secrets[secret.key := secret]);
      assert Publish(p, d, owner, o) == Converge(p2, created, o);
      ConvergeFrame(p2, created, o);
    }
  }


  /** An error of creation is the failure of its last request, and that request is fatal. */
  lemma CreateEndsWithFatal(p: Pass, d: Database, o: Oracle)
    ensures EndsWithFatal(p, Create(p, d, o), o)
  {
    var owner := User(d.name, o.password);
    if Succeeds(o, CreateDatabase) && Succeeds(o, NewUser) && Succeeds(o, CreateUser(owner)) {
      var p3 := Issue(Issue(Issue(p, CreateDatabase, o), NewUser, o), CreateUser(owner), o);
      assert Create(p, d, o) == Publish(p3, d, owner, o);
      PublishEndsWithFatal(p3, d, owner, o);
    }
  }

  lemma PublishEndsWithFatal(p: Pass, d: Database, owner: User, o: Oracle)
    ensures EndsWithFatal(p, Publish(p, d, owner, o), o)
  {
  }

  /**
   The pass reports an error only for a failed fetch, for the wildcard type,
   or for the failure of its last request when that request is one of the
   fatal ones; failed grants, revokes, drops and secret writes never surface.
   */
  lemma ErrorsAreFatal(w: World, o: Oracle)
    ensures var r := Reconcile(w, o); var t := r.pass.trace;
      r.err.Some? ==>
        || (r.err == Some(FetchFailed) && o.fetchFails && t == [])
        || (r.err == Some(Unsupported) && t == [])
        || (|t| > 0 && r.err == Some(CallFailed(t[|t| - 1])) && !Succeeds(o, t[|t| - 1]) && IsFatal(t[|t| - 1]))
  {
    if !o.fetchFails && w.stored.Some? && Admitted(w.stored.value, o) {
      Admission(w, o);
      ProtectEndsWithFatal(Pass(Preamble(w.stored.value), w), w.stored.value, o);
    }
  }

  /**
   The converse: whenever the last request of a pass failed and is one of the
   fatal ones, the pass reports exactly that failure. Together with
   `ErrorsAreFatal`, a pass that issued requests reports an error if and only
   if its last request is a fatal one that failed.
   */
  lemma FatalFailuresAreReported(w: World, o: Oracle)
    ensures var r := Reconcile(w, o); var t := r.pass.trace;
      |t| > 0 && !Succeeds(o, t[|t| - 1]) && IsFatal(t[|t| - 1]) ==> r.err == Some(CallFailed(t[|t| - 1]))
  {
    if !o.fetchFails && w.stored.Some? && Admitted(w.stored.value, o) {
      Admission(w, o);
      ProtectReportsFatal(Pass(Preamble(w.stored.value), w), w.stored.value, o);
    }
  }

  /** The last request of an outcome, when it failed and is fatal, is the error reported. */
  predicate FatalReported(r: Outcome, o: Oracle) {
    var t := r.pass.trace;
    |t| > 0 && !Succeeds(o, t[|t| - 1]) && IsFatal(t[|t| - 1]) ==> r.err == Some(CallFailed(t[|t| - 1]))
  }

  lemma ProtectReportsFatal(p: Pass, d: Database, o: Oracle)
    ensures FatalReported(Protect(p, d, o), o)
  {
    if !d.deleting && FinalizerName !in d.finalizers {
      var registered := d.(finalizers := d.finalizers + [FinalizerName]);
      if Succeeds(o, Update(registered)) {
        var p1 := Issue(p, Update(registered), o);
        assert Protect(p, d, o) == Provision(p1, registered, o);
        ProvisionReportsFatal(p1, registered, o);
      }
    } else if d.deleting && FinalizerName in d.finalizers {
      var f := Finalize(p, d, o);
      var released := d.(finalizers := RemoveString(d.finalizers, FinalizerName), phase := PhaseTerminating);
      assert Protect(p, d, o).pass == Issue(f.pass, Update(released), o);
    } else {
      assert Protect(p, d, o) == Provision(p, d, o);
      ProvisionReportsFatal(p, d, o);
    }
  }

  lemma ProvisionReportsFatal(p: Pass, d: Database, o: Oracle)
    ensures FatalReported(Provision(p, d, o), o) && EndsWithFatal(p, Provision(p, d, o), o)
  {
    ProvisionEndsWithFatal(p, d, o);
    if d.phase != PhaseCreated && Succeeds(o, Exists) && !p.world.server.dbExists {
      assert Provision(p, d, o) == Create(Issue(p, Exists, o), d, o);
      CreateReportsFatal(Issue(p, Exists, o), d, o);
    } else if d.phase != PhaseCreated && Succeeds(o, Exists) {
      assert Provision(p, d, o) == Converge(Issue(p, Exists, o), d, o);
      ConvergeReportsFatal(Issue(p, Exists, o), d, o);
    } else if d.phase == PhaseCreated {
      assert Provision(p, d, o) == Converge(p, d, o);
      ConvergeReportsFatal(p, d, o);
    }
  }

  lemma CreateReportsFatal(p: Pass, d: Database, o: Oracle)
    ensures FatalReported(Create(p, d, o), o)
  {
    var owner := User(d.name, o.password);
    if Succeeds(o, CreateDatabase) && Succeeds(o, NewUser) && Succeeds(o, CreateUser(owner)) {
      var p3 := Issue(Issue(Issue(p, CreateDatabase, o), NewUser, o), CreateUser(owner), o);
      assert Create(p, d, o) == Publish(p3, d, owner, o);
      PublishReportsFatal(p3, d, owner, o);
    }
  }

  lemma PublishReportsFatal(p: Pass, d: Database, owner: User, o: Oracle)
    ensures FatalReported(Publish(p, d, owner, o), o)
  {
    var secret := CreateSecret(CredentialSecret(d, o.host, owner.username, owner.password));
    var created := d.(phase := PhaseCreated);
    if Succeeds(o, secret) && Succeeds(o, Update(created)) {
      var p2 := Issue(Issue(p, secret, o), Update(created), o);
      assert Publish(p, d, owner, o) == Converge(p2, created, o);
      ConvergeReportsFatal(p2, created, o);
    }
  }

  /** Past the listing, convergence issues only grants and revokes, whose failures are not fatal. */
  lemma ConvergeReportsFatal(p: Pass, d: Database, o: Oracle)
    ensures FatalReported(Converge(p, d, o), o)
  {
    if Succeeds(o, RoleUsers) {
      var t := Converge(p, d, o).pass.trace;
      var n := |p.trace|;
      ConvergeCalls(p, d, o);
      if |t| - 1 > n {
        assert t[|t| - 1] == t[n..][|t| - 1 - n];
      }
    }
  }

  /**
   Registration: an object that is not being deleted and lacks the
   finalizer gets it appended and persisted right after the preamble, before
   any other request; if that update fails the pass ends with its error and
   nothing else changes.
   */
  lemma FinalizerRegistered(w: World, o: Oracle)
    requires !o.fetchFails && w.stored.Some? && Admitted(w.stored.value, o)
    requires !w.stored.value.deleting && FinalizerName !in w.stored.value.finalizers
    ensures var d := w.stored.value; var r := Reconcile(w, o); var t := r.pass.trace;
      var k := |Preamble(d)|; var registered := d.(finalizers := d.finalizers + [FinalizerName]);
      && |t| > k && t[..k] == Preamble(d) && t[k] == Update(registered)
      && FinalizerName in registered.finalizers
      && (!Succeeds(o, Update(registered)) ==>
            r == Outcome(Pass(Preamble(d) + [Update(registered)], w), Some(CallFailed(Update(registered)))))
  {
    Admission(w, o);
  }

  /**
   Deletion: an object being deleted that carries the finalizer is
   finalized (secret, owner, and the database only when asked), then stored
   without the finalizer and with phase Terminating, and the pass ends there.
   */
  lemma DeletionFinalizes(w: World, o: Oracle)
    requires !o.fetchFails && w.stored.Some? && Admitted(w.stored.value, o)
    requires w.stored.value.deleting && FinalizerName in w.stored.value.finalizers
    ensures var d := w.stored.value; var r := Reconcile(w, o);
      var released := d.(finalizers := RemoveString(d.finalizers, FinalizerName), phase := PhaseTerminating);
      && r.pass.trace == Preamble(d) + FinalizeCalls(d) + [Update(released)]
      && r.err == (if Succeeds(o, Update(released)) then None else Some(CallFailed(Update(released))))
      && r.pass.world.stored == (if Succeeds(o, Update(released)) then Some(released) else w.stored)
  {
    var d := w.stored.value;
    var p := Pass(Preamble(d), w);
    var released := d.(finalizers := RemoveString(d.finalizers, FinalizerName), phase := PhaseTerminating);
    Admission(w, o);
    FinalizeSpec(p, d, o);
    var f := Finalize(p, d, o);
    assert Protect(p, d, o) ==
      Outcome(Issue(f.pass, Update(released), o), if Succeeds(o, Update(released)) then None else Some(CallFailed(Update(released))));
  }

  /**
   The stored object after deletion has no copy of the finalizer; its other
   finalizers are kept, in order and with their multiplicity; and a deletion
   pass issues nothing of provisioning or convergence.
   */
  lemma DeletionReleases(w: World, o: Oracle)
    requires !o.fetchFails && w.stored.Some? && Admitted(w.stored.value, o)
    requires w.stored.value.deleting && FinalizerName in w.stored.value.finalizers
    ensures var d := w.stored.value; var r := Reconcile(w, o);
      r.err == None ==>
        && r.pass.world.stored.Some?
        && var kept := r.pass.world.stored.value.finalizers;
        && FinalizerName !in kept
        && Subsequence(kept, d.finalizers)
        && forall x :: x != FinalizerName ==> multiset(kept)[x] == multiset(d.finalizers)[x]
  {
    DeletionFinalizes(w, o);
    RemoveStringCounts(w.stored.value.finalizers, FinalizerName);
    RemoveStringKeepsOrder(w.stored.value.finalizers, FinalizerName);
  }

  /** A pass over a deleting object that carries the finalizer neither provisions nor touches memberships. */
  lemma DeletionDoesNotProvision(w: World, o: Oracle)
    requires !o.fetchFails && w.stored.Some? && Admitted(w.stored.value, o)
    requires w.stored.value.deleting && FinalizerName in w.stored.value.finalizers
    ensures forall c :: c in Reconcile(w, o).pass.trace ==> !IsMembershipCall(c) && !IsCreation(c) && !c.Exists?
  {
    var d := w.stored.value;
    DeletionFinalizes(w, o);
    DeletionCalls(d, d.(finalizers := RemoveString(d.finalizers, FinalizerName), phase := PhaseTerminating));
  }

  lemma DeletionCalls(d: Database, released: Database)
    ensures forall c :: c in Preamble(d) + FinalizeCalls(d) + [Update(released)] ==>
      !IsMembershipCall(c) && !IsCreation(c) && !c.Exists?
  {
  }

  /** Every error the finalizer protocol reports is the failure of its last request, and that request is fatal. */
  lemma ProtectEndsWithFatal(p: Pass, d: Database, o: Oracle)
    ensures EndsWithFatal(p, Protect(p, d, o), o)
  {
    if !d.deleting && FinalizerName !in d.finalizers {
      RegistrationEndsWithFatal(p, d, o);
    } else if d.deleting && FinalizerName in d.finalizers {
      ReleaseEndsWithFatal(p, d, o);
    } else {
      assert Protect(p, d, o) == Provision(p, d, o);
      ProvisionEndsWithFatal(p, d, o);
    }
  }

  lemma RegistrationEndsWithFatal(p: Pass, d: Database, o: Oracle)
    requires !d.deleting && FinalizerName !in d.finalizers
    ensures EndsWithFatal(p, Protect(p, d, o), o)
  {
    var registered := d.(finalizers := d.finalizers + [FinalizerName]);
    if Succeeds(o, Update(registered)) {
      var p1 := Issue(p, Update(registered), o);
      assert Protect(p, d, o) == Provision(p1, registered, o);
      ProvisionEndsWithFatal(p1, registered, o);
    }
  }

  lemma ReleaseEndsWithFatal(p: Pass, d: Database, o: Oracle)
    requires d.deleting && FinalizerName in d.finalizers
    ensures EndsWithFatal(p, Protect(p, d, o), o)
  {
  }

  lemma ProvisionEndsWithFatal(p: Pass, d: Database, o: Oracle)
    ensures EndsWithFatal(p, Provision(p, d, o), o)
  {
    if d.phase != PhaseCreated && Succeeds(o, Exists) && !p.world.server.dbExists {
      assert Provision(p, d, o) == Create(Issue(p, Exists, o), d, o);
      CreateEndsWithFatal(Issue(p, Exists, o), d, o);
    } else if d.phase != PhaseCreated && Succeeds(o, Exists) {
      assert Provision(p, d, o) == Converge(Issue(p, Exists, o), d, o);
    } else if d.phase == PhaseCreated {
      assert Provision(p, d, o) == Converge(p, d, o);
    }
  }
}

=== FILE: provisioning.dfy ===
/**
 Properties of provisioning and convergence over an arbitrary pass prefix:
 what they leave in the stored object, when they create, and what they do
 once the role is already in its desired shape.
 */
module ProvisioningProperties {
  import opened Lists
  import opened Resource
  import opened External
  import opened Reconciler

  /** A role whose members are, as a set, exactly the desired ones. */
  ghost predicate RoleConverged(s: Server, d: Database) {
    forall x :: x in s.members <==> x in Desired(d)
  }

  /** Convergence of a role already in shape lists the members and does nothing else. */
  lemma QuietConverge(p: Pass, d: Database, o: Oracle)
    requires Succeeds(o, RoleUsers) && RoleConverged(p.world.server, d)
    ensures Converge(p, d, o) == Outcome(Pass(p.trace + [RoleUsers], p.world), None)
  {
    MissingNone(p.world.server.members, Desired(d));
    MissingNone(Desired(d), p.world.server.members);
  }

  /** Convergence issues nothing but membership requests. */
  lemma ConvergeOnlyMembership(p: Pass, d: Database, o: Oracle)
    ensures var t := Converge(p, d, o).pass.trace;
      forall i :: |p.trace| <= i < |t| ==> IsMembershipCall(t[i])
  {
    if Succeeds(o, RoleUsers) {
      var t := Converge(p, d, o).pass.trace;
      ConvergeCalls(p, d, o);
      forall i | |p.trace| <= i < |t| ensures IsMembershipCall(t[i]) {
        assert t[i] == t[|p.trace|..][i - |p.trace|];
      }
    }
  }

  /** Convergence with every request succeeding leaves exactly the desired members and nothing else changed. */
  lemma ConvergeAllSucceed(p: Pass, d: Database, o: Oracle)
    requires o.failing == {}
    ensures var r := Converge(p, d, o);
      && r.err == None
      && r.pass.world == p.world.(server := p.world.server.(members := r.pass.world.server.members))
      && RoleConverged(r.pass.world.server, d)
  {
    ConvergeMembers(p, d, o);
    ConvergeFrame(p, d, o);
  }

  /** Creation either stores nothing or stores the object with phase Created. */
  lemma CreateStored(p: Pass, d: Database, o: Oracle)
    ensures var s := Create(p, d, o).pass.world.stored;
      s == p.world.stored || s == Some(d.(phase := PhaseCreated))
  {
    var owner := User(d.name, o.password);
    var p1 := Issue(p, CreateDatabase, o);
    var p2 := Issue(p1, NewUser, o);
    var p3 := Issue(p2, CreateUser(owner), o);
    if !Succeeds(o, CreateDatabase) {
      assert Create(p, d, o).pass == p1;
    } else if !Succeeds(o, NewUser) {
      assert Create(p, d, o).pass == p2;
    } else if !Succeeds(o, CreateUser(owner)) {
      assert Create(p, d, o).pass == p3;
    } else {
      assert Create(p, d, o) == Publish(p3, d, owner, o);
      PublishStored(p3, d, owner, o);
    }
  }

  /** Publishing either stores nothing or stores the object with phase Created. */
  lemma PublishStored(p: Pass, d: Database, owner: User, o: Oracle)
    ensures var s := Publish(p, d, owner, o).pass.world.stored;
      s == p.world.stored || s == Some(d.(phase := PhaseCreated))
  {
    var secret := CreateSecret(CredentialSecret(d, o.host, owner.username, owner.password));
    var created := d.(phase := PhaseCreated);
    if !Succeeds(o, secret) {
    } else if !Succeeds(o, Update(created)) {
      var p2 := Issue(Issue(p, secret, o), Update(created), o);
      assert Publish(p, d, owner, o) == Outcome(p2, Some(CallFailed(Update(created))));
    } else {
      var p2 := Issue(Issue(p, secret, o), Update(created), o);
      assert p2.world.stored == Some(created);
      assert Publish(p, d, owner, o) == Converge(p2, created, o);
      if Succeeds(o, RoleUsers) {
        ConvergeFrame(p2, created, o);
      }
    }
  }


  /** Provisioning either stores nothing or stores the object with phase Created. */
  lemma ProvisionStored(p: Pass, d: Database, o: Oracle)
    ensures var s := Provision(p, d, o).pass.world.stored;
      s == p.world.stored || s == Some(d.(phase := PhaseCreated))
  {
    if d.phase != PhaseCreated {
      var p1 := Issue(p, Exists, o);
      if Succeeds(o, Exists) {
        if p.world.server.dbExists {
          if Succeeds(o, RoleUsers) {
            ConvergeFrame(p1, d, o);
          }
        } else {
          CreateStored(p1, d, o);
        }
      }
    } else if Succeeds(o, RoleUsers) {
      ConvergeFrame(p, d, o);
    }
  }

  /**
   Provisioning creates exactly when the phase is not Created, the existence
   check succeeds and reports no database: then the request after the check
   is the database creation; otherwise no creation request is issued at all.
   */
  lemma ProvisionCreatesOnlyWhenMissing(p: Pass, d: Database, o: Oracle)
    ensures var t := Provision(p, d, o).pass.trace; var n := |p.trace|;
      && (d.phase != PhaseCreated && Succeeds(o, Exists) && !p.world.server.dbExists ==>
            |t| > n + 1 && t[n] == Exists && t[n + 1] == CreateDatabase)
      && (!(d.phase != PhaseCreated && Succeeds(o, Exists) && !p.world.server.dbExists) ==>
            forall i :: n <= i < |t| ==> !IsCreation(t[i]))
  {
    if d.phase != PhaseCreated && Succeeds(o, Exists) && !p.world.server.dbExists {
      assert Provision(p, d, o) == Create(Issue(p, Exists, o), d, o);
    } else {
      ProvisionCreatesNothing(p, d, o);
    }
  }

  lemma ProvisionCreatesNothing(p: Pass, d: Database, o: Oracle)
    requires !(d.phase != PhaseCreated && Succeeds(o, Exists) && !p.world.server.dbExists)
    ensures var t := Provision(p, d, o).pass.trace; forall i :: |p.trace| <= i < |t| ==> !IsCreation(t[i])
  {
    if d.phase == PhaseCreated {
      assert Provision(p, d, o) == Converge(p, d, o);
      ConvergeCreatesNothing(p, d, o, |p.trace|);
    } else if Succeeds(o, Exists) {
      assert Provision(p, d, o) == Converge(Issue(p, Exists, o), d, o);
      ConvergeCreatesNothing(Issue(p, Exists, o), d, o, |p.trace|);
    } else {
      assert Provision(p, d, o).pass.trace == p.trace + [Exists];
    }
  }

  /**
   A database that already exists is left alone: whatever fails, provisioning
   issues no creation request and changes nothing but the role's members, so
   the stored object keeps its phase.
   */
  lemma ProvisionExisting(p: Pass, d: Database, o: Oracle)
    requires d.phase != PhaseCreated && p.world.server.dbExists
    ensures var r := Provision(p, d, o); var t := r.pass.trace;
      && r.pass.world == p.world.(server := p.world.server.(members := r.pass.world.server.members))
      && forall i :: |p.trace| <= i < |t| ==> !IsCreation(t[i])
  {
    var q := Issue(p, Exists, o);
    if Succeeds(o, Exists) {
      assert Provision(p, d, o) == Converge(q, d, o);
      ConvergeFrame(q, d, o);
      ConvergeCreatesNothing(q, d, o, |p.trace|);
    } else {
      assert Provision(p, d, o) == Outcome(q, Some(CallFailed(Exists)));
    }
  }

  /** Past a prefix that ends in at most an existence check, convergence leaves no creation request. */
  lemma ConvergeCreatesNothing(q: Pass, d: Database, o: Oracle, n: nat)
    requires |q.trace| == n || (|q.trace| == n + 1 && q.trace[n] == Exists)
    ensures var t := Converge(q, d, o).pass.trace; forall i :: n <= i < |t| ==> !IsCreation(t[i])
  {
    var t := Converge(q, d, o).pass.trace;
    ConvergeOnlyMembership(q, d, o);
    forall i | n <= i < |t| ensures !IsCreation(t[i]) {
      if i < |q.trace| {
        assert t[i] == t[..|q.trace|][i] == Exists;
      } else {
        assert IsMembershipCall(t[i]);
      }
    }
  }

  /**
   Provisioning with every request succeeding reports no error, leaves the
   role with exactly the desired members, and leaves the database existing
   unless the phase was already Created and it was missing.
   */
  lemma ProvisionAllSucceed(p: Pass, d: Database, o: Oracle)
    requires o.failing == {}
    ensures var r := Provision(p, d, o);
      && r.err == None
      && RoleConverged(r.pass.world.server, d)
      && (r.pass.world.server.dbExists <==> p.world.server.dbExists || d.phase != PhaseCreated)
      && (p.world.server.dbExists || d.phase == PhaseCreated ==> r.pass.world.stored == p.world.stored)
  {
    if d.phase != PhaseCreated && !p.world.server.dbExists {
      ProvisionCreatesAllSucceed(p, d, o);
    } else {
      var q := if d.phase == PhaseCreated then p else Issue(p, Exists, o);
      assert Provision(p, d, o) == Converge(q, d, o);
      assert q.world == p.world;
      ConvergeAllSucceed(q, d, o);
    }
  }

  lemma ProvisionCreatesAllSucceed(p: Pass, d: Database, o: Oracle)
    requires o.failing == {} && d.phase != PhaseCreated && !p.world.server.dbExists
    ensures var r := Provision(p, d, o);
      r.err == None && RoleConverged(r.pass.world.server, d) && r.pass.world.server.dbExists
  {
    var p1 := Issue(p, Exists, o);
    assert Provision(p, d, o) == Create(p1, d, o);
    CreateUnfolds(p1, d, o);
    var q := CreationIssued(p1, d, o);
    CreationIssuedExists(p1, d, o);
    assert Desired(d.(phase := PhaseCreated)) == Desired(d);
    ConvergeAllSucceed(q, d.(phase := PhaseCreated), o);
  }

  /**
   Creation with every request succeeding: the five requests in order, then
   convergence of the object recorded as Created, with the database, the
   owner and the secret in place.
   */
  lemma CreateAllSucceed(p: Pass, d: Database, o: Oracle)
    requires o.failing == {}
    ensures var owner := User(d.name, o.password);
      var created := d.(phase := PhaseCreated);
      var secret := CredentialSecret(d, o.host, d.name, o.password);
      var s := p.world.server;
      Create(p, d, o) ==
        Converge(Pass(p.trace + [CreateDatabase, NewUser, CreateUser(owner), CreateSecret(secret), Update(created)],
                      p.world.(stored := Some(created),
                               server := s.(dbExists := true, roleExists := true, logins := s.logins + {d.name}),
                               secrets := p.world.secrets[secret.key := secret])),
                 created, o)
  {
    CreateUnfolds(p, d, o);
    CreationChain(p, d, o);
  }

  /** The five requests of a creation that all succeed, issued one by one. */
  function CreationIssued(p: Pass, d: Database, o: Oracle): Pass {
    var owner := User(d.name, o.password);
    var secret := CredentialSecret(d, o.host, d.name, o.password);
    Issue(Issue(Issue(Issue(Issue(p, CreateDatabase, o), NewUser, o), CreateUser(owner), o),
                CreateSecret(secret), o), Update(d.(phase := PhaseCreated)), o)
  }

  lemma CreationIssuedExists(p: Pass, d: Database, o: Oracle)
    requires o.failing == {}
    ensures CreationIssued(p, d, o).world.server.dbExists
  {
  }

  lemma CreateUnfolds(p: Pass, d: Database, o: Oracle)
    requires o.failing == {}
    ensures Create(p, d, o) == Converge(CreationIssued(p, d, o), d.(phase := PhaseCreated), o)
  {
  }

  lemma CreationChain(p: Pass, d: Database, o: Oracle)
    requires o.failing == {}
    ensures var owner := User(d.name, o.password);
      var created := d.(phase := PhaseCreated);
      var secret := CredentialSecret(d, o.host, d.name, o.password);
      var s := p.world.server;
      CreationIssued(p, d, o) ==
        Pass(p.trace + [CreateDatabase, NewUser, CreateUser(owner), CreateSecret(secret), Update(created)],
             p.world.(stored := Some(created),
                      server := s.(dbExists := true, roleExists := true, logins := s.logins + {d.name}),
                      secrets := p.world.secrets[secret.key := secret]))
  {
    var owner := User(d.name, o.password);
    Snoc5(p.trace, CreateDatabase, NewUser, CreateUser(owner),
          CreateSecret(CredentialSecret(d, o.host, d.name, o.password)), Update(d.(phase := PhaseCreated)));
  }

  lemma Snoc5(t: seq<Call>, a: Call, b: Call, c: Call, d: Call, e: Call)
    ensures t + [a] + [b] + [c] + [d] + [e] == t + [a, b, c, d, e]
  {
  }
}

=== FILE: reconciler.dfy ===
/**
 One reconcile pass of the database controller as a pure function. The world
 a pass sees (the stored `Database`, the database server, the secrets) is an
 input; every fallible request is answered by an oracle; the pass returns the
 requests it issued, in order, the world they left behind and the error it
 reports.
 */
module Reconciler {
  import opened Lists
  import opened Resource
  import opened External

  /** What a pass can observe: the stored object (None once it is gone), the server, the secrets. */
  datatype World = World(stored: Option<Database>, server: Server, secrets: map<SecretKey, Secret>)

  /**
   The answers of everything a pass cannot decide itself: whether fetching
   the object fails, which requests fail (a request with the same arguments
   gets the same answer throughout a pass), the generated password and the
   server host taken from the environment.
   */
  datatype Oracle = Oracle(fetchFails: bool, failing: set<Call>, password: string, host: string)

  predicate Succeeds(o: Oracle, c: Call) {
    c !in o.failing
  }

  datatype Error = FetchFailed | Unsupported | CallFailed(call: Call)

  /**
   The requests whose failure ends the pass with that failure. Failures of
   the others (secret writes and deletes, drops, grants, revokes) are only
   logged.
   */
  predicate IsFatal(c: Call) {
    c.Connect? || c.Exists? || c.CreateDatabase? || c.NewUser? || c.CreateUser? || c.RoleUsers? || c.Update?
  }

  /** An error reported by a layer is the failure of the last request it issued, and that request is fatal. */
  predicate EndsWithFatal(p: Pass, r: Outcome, o: Oracle) {
    r.err.Some? ==>
      && |r.pass.trace| > |p.trace|
      && var last := r.pass.trace[|r.pass.trace| - 1];
      && r.err == Some(CallFailed(last)) && !Succeeds(o, last) && IsFatal(last)
  }

  /** The requests issued so far and the world as they left it. */
  datatype Pass = Pass(trace: seq<Call>, world: World)

  /** The end of a pass: what it did, and the error it returns (None for nil). */
  datatype Outcome = Outcome(pass: Pass, err: Option<Error>)

  /** The effect of a successful request on the world. */
  function Effect(w: World, c: Call): World {
    match c
    case Update(d) => w.(stored := Some(d))
    case CreateSecret(s) => w.(secrets := w.secrets[s.key := s])
    case DeleteSecret(k) => w.(secrets := w.secrets - {k})
    case _ => w.(server := Perform(w.server, c))
  }

  /** Issue one request: record it, and apply its effect when the oracle lets it succeed. */
  function Issue(p: Pass, c: Call, o: Oracle): (r: Pass)
    ensures |r.trace| == |p.trace| + 1 && r.trace[..|p.trace|] == p.trace && r.trace[|p.trace|] == c
  {
    Pass(p.trace + [c], if Succeeds(o, c) then Effect(p.world, c) else p.world)
  }

  /** A prefix of a prefix is a prefix. */
  lemma PrefixTransitive(a: seq<Call>, b: seq<Call>, c: seq<Call>)
    requires |c| <= |b| <= |a| && a[..|b|] == b && b[..|c|] == c
    ensures a[..|c|] == c
  {
    assert a[..|c|] == a[..|b|][..|c|];
  }

  /** Issue a sequence of requests one after the other, whatever each one's answer. */
  function IssueAll(p: Pass, calls: seq<Call>, o: Oracle): (r: Pass)
    ensures r.trace == p.trace + calls
    decreases |calls|
  {
    if calls == [] then p
    else
      assert calls == [calls[0]] + calls[1..];
      IssueAll(Issue(p, calls[0], o), calls[1..], o)
  }

  function RevokeCalls(grantees: seq<string>): (calls: seq<Call>)
    ensures |calls| == |grantees|
    ensures forall i :: 0 <= i < |calls| ==> calls[i] == Revoke(grantees[i])
  {
    if grantees == [] then [] else [Revoke(grantees[0])] + RevokeCalls(grantees[1..])
  }

  function GrantCalls(grantees: seq<string>): (calls: seq<Call>)
    ensures |calls| == |grantees|
    ensures forall i :: 0 <= i < |calls| ==> calls[i] == Grant(grantees[i])
  {
    if grantees == [] then [] else [Grant(grantees[0])] + GrantCalls(grantees[1..])
  }

  lemma CallsMention(grantees: seq<string>)
    ensures forall u :: Revoke(u) in RevokeCalls(grantees) <==> u in grantees
    ensures forall u :: Grant(u) in GrantCalls(grantees) <==> u in grantees
    ensures forall u :: Grant(u) !in RevokeCalls(grantees) && Revoke(u) !in GrantCalls(grantees)
  {
    forall u ensures Revoke(u) in RevokeCalls(grantees) <==> u in grantees {
      if u in grantees {
        var i :| 0 <= i < |grantees| && grantees[i] == u;
        assert RevokeCalls(grantees)[i] == Revoke(u);
      }
    }
    forall u ensures Grant(u) in GrantCalls(grantees) <==> u in grantees {
      if u in grantees {
        var i :| 0 <= i < |grantees| && grantees[i] == u;
        assert GrantCalls(grantees)[i] == Grant(u);
      }
    }
  }

  /** The members the role should have: the owner first, then the declared users. */
  function Desired(d: Database): (desired: seq<string>)
    ensures forall x :: x in desired <==> x == d.name || x in d.users
  {
    [d.name] + d.users
  }

  /** The requests of the finalizer, in order. */
  function FinalizeCalls(d: Database): seq<Call> {
    [DeleteSecret(CredentialKey(d)), DropUser(d.name)] + (if d.drop then [DropDatabase] else [])
  }

  /**
   The finalizer: delete the credential secret, drop the owner (and with it
   the role), and drop the database only when the object asks for it. Every
   failure is swallowed; the procedure always reports no error.
   */
  function Finalize(p: Pass, d: Database, o: Oracle): (r: Outcome)
    ensures r.err == None
    ensures r.pass.trace == p.trace + FinalizeCalls(d)
  {
    var p1 := Issue(p, DeleteSecret(CredentialKey(d)), o);
    var p2 := Issue(p1, DropUser(d.name), o);
    var p3 := if d.drop then Issue(p2, DropDatabase, o) else p2;
    Outcome(p3, None)
  }

  /**
   The order of the finalizer's requests: the secret delete, then the owner
   drop, then the database drop if and only if the object asks for it.
   */
  lemma FinalizeOrder(d: Database)
    ensures var calls := FinalizeCalls(d);
      && calls[0] == DeleteSecret(CredentialKey(d))
      && calls[1] == DropUser(d.name)
      && (DropDatabase in calls <==> d.drop)
  {
  }

  /**
   What the finalizer leaves behind: the secret, the owner with the role,
   and the database (when asked) are gone when their request succeeded; the
   stored object is untouched.
   */
  lemma FinalizeSpec(p: Pass, d: Database, o: Oracle)
    ensures var q := Finalize(p, d, o).pass;
      && q.world.stored == p.world.stored
      && q.world.secrets == (if Succeeds(o, DeleteSecret(CredentialKey(d)))
                             then p.world.secrets - {CredentialKey(d)} else p.world.secrets)
      && (Succeeds(o, DropUser(d.name)) ==>
            d.name !in q.world.server.logins && !q.world.server.roleExists && q.world.server.members == [])
      && (q.world.server.dbExists <==> p.world.server.dbExists && !(d.drop && Succeeds(o, DropDatabase)))
  {
  }

  /**
   Role convergence: list the members, revoke every member that is not
   desired, then grant every desired entry that is not a member. Each loop of
   the controller decides its calls from the listing alone, so issuing the
   calls for the order-preserving differences is the same sequence of
   requests. Grant and revoke failures are swallowed.
   */
  function Converge(p: Pass, d: Database, o: Oracle): (r: Outcome)
    ensures |r.pass.trace| > |p.trace| && r.pass.trace[..|p.trace|] == p.trace
    ensures r.pass.trace[|p.trace|] == RoleUsers
    ensures r.err == if Succeeds(o, RoleUsers) then None else Some(CallFailed(RoleUsers))
    ensures !Succeeds(o, RoleUsers) ==> |r.pass.trace| == |p.trace| + 1 && r.pass.world == p.world
  {
    var p1 := Issue(p, RoleUsers, o);
    if !Succeeds(o, RoleUsers) then Outcome(p1, Some(CallFailed(RoleUsers)))
    else
      var current := p.world.server.members;
      var revoked := IssueAll(p1, RevokeCalls(Missing(current, Desired(d))), o);
      Outcome(IssueAll(revoked, GrantCalls(Missing(Desired(d), current)), o), None)
  }

  /** Issuing grants and revokes changes nothing but the role's members. */
  lemma {:induction false} MembershipFrame(p: Pass, calls: seq<Call>, o: Oracle)
    requires forall i :: 0 <= i < |calls| ==> calls[i].Grant? || calls[i].Revoke?
    ensures var r := IssueAll(p, calls, o);
      r.world == p.world.(server := p.world.server.(members := r.world.server.members))
    decreases |calls|
  {
    if calls != [] {
      assert IssueAll(p, calls, o) == IssueAll(Issue(p, calls[0], o), calls[1..], o);
      MembershipFrame(Issue(p, calls[0], o), calls[1..], o);
    }
  }

  /** Issuing revokes removes exactly the grantees whose revoke succeeds. */
  lemma {:induction false} RevokesMembers(p: Pass, grantees: seq<string>, o: Oracle)
    ensures var r := IssueAll(p, RevokeCalls(grantees), o);
      forall x :: x in r.world.server.members <==>
        x in p.world.server.members && !(x in grantees && Succeeds(o, Revoke(x)))
    decreases |grantees|
  {
    if grantees != [] {
      var g := grantees[0];
      var p1 := Issue(p, Revoke(g), o);
      assert RevokeCalls(grantees)[1..] == RevokeCalls(grantees[1..]);
      assert IssueAll(p, RevokeCalls(grantees), o) == IssueAll(p1, RevokeCalls(grantees[1..]), o);
      RevokesMembers(p1, grantees[1..], o);
      MemberStep(p, Revoke(g), o);
      HeadTail(grantees);
    }
  }

  /** Issuing grants adds exactly the grantees whose grant succeeds. */
  lemma {:induction false} GrantsMembers(p: Pass, grantees: seq<string>, o: Oracle)
    ensures var r := IssueAll(p, GrantCalls(grantees), o);
      forall x :: x in r.world.server.members <==>
        x in p.world.server.members || (x in grantees && Succeeds(o, Grant(x)))
    decreases |grantees|
  {
    if grantees != [] {
      var g := grantees[0];
      var p1 := Issue(p, Grant(g), o);
      assert GrantCalls(grantees)[1..] == GrantCalls(grantees[1..]);
      assert IssueAll(p, GrantCalls(grantees), o) == IssueAll(p1, GrantCalls(grantees[1..]), o);
      GrantsMembers(p1, grantees[1..], o);
      MemberStep(p, Grant(g), o);
      HeadTail(grantees);
    }
  }

  /** One grant or revoke changes the role's members as the server does when it succeeds. */
  lemma MemberStep(p: Pass, c: Call, o: Oracle)
    requires c.Grant? || c.Revoke?
    ensures c.Grant? ==> forall x :: x in Issue(p, c, o).world.server.members <==>
      x in p.world.server.members || (x == c.grantee && Succeeds(o, c))
    ensures c.Revoke? ==> forall x :: x in Issue(p, c, o).world.server.members <==>
      x in p.world.server.members && !(x == c.grantee && Succeeds(o, c))
  {
    PerformMembers(p.world.server, c);
  }

  lemma HeadTail(s: seq<string>)
    requires s != []
    ensures forall x :: x in s <==> x == s[0] || x in s[1..]
  {
    assert s == [s[0]] + s[1..];
  }

  /** The requests of a successful convergence: the listing, the revokes, then the grants. */
  lemma ConvergeTrace(p: Pass, d: Database, o: Oracle)
    requires Succeeds(o, RoleUsers)
    ensures Converge(p, d, o).pass.trace[|p.trace|..] ==
              [RoleUsers] + RevokeCalls(Missing(p.world.server.members, Desired(d)))
              + GrantCalls(Missing(Desired(d), p.world.server.members))
  {
    var revokes := RevokeCalls(Missing(p.world.server.members, Desired(d)));
    var grants := GrantCalls(Missing(Desired(d), p.world.server.members));
    var revoked := IssueAll(Issue(p, RoleUsers, o), revokes, o);
    assert Converge(p, d, o).pass.trace == revoked.trace + grants;
    Regroup(p.trace, [RoleUsers], revokes, grants);
  }

  lemma Regroup(t: seq<Call>, a: seq<Call>, b: seq<Call>, c: seq<Call>)
    ensures (t + a + b + c)[|t|..] == a + b + c
  {
    assert t + a + b + c == t + (a + b + c);
  }

  /** After the listing, convergence issues only revokes and grants, every revoke before every grant. */
  lemma ListingRevokesGrantsOrder(revoked: seq<string>, granted: seq<string>)
    ensures var ext := [RoleUsers] + RevokeCalls(revoked) + GrantCalls(granted);
      && (forall i :: 0 < i < |ext| ==> ext[i].Revoke? || ext[i].Grant?)
      && (forall i, j :: 0 < i < j < |ext| && ext[i].Grant? ==> ext[j].Grant?)
  {
    ListingKinds(revoked, granted);
  }

  /** Position by position: the listing, then one revoke per entry of `revoked`, then one grant per entry of `granted`. */
  lemma ListingKinds(revoked: seq<string>, granted: seq<string>)
    ensures var ext := [RoleUsers] + RevokeCalls(revoked) + GrantCalls(granted);
      && |ext| == 1 + |revoked| + |granted|
      && (forall k :: 0 < k <= |revoked| ==> ext[k].Revoke?)
      && (forall k :: |revoked| < k < |ext| ==> ext[k].Grant?)
  {
    var revokes := RevokeCalls(revoked);
    var grants := GrantCalls(granted);
    var ext := [RoleUsers] + revokes + grants;
    forall k | 0 < k <= |revoked| ensures ext[k].Revoke? {
      assert ext[k] == ([RoleUsers] + revokes)[k] == revokes[k - 1];
    }
    forall k | |revoked| < k < |ext| ensures ext[k].Grant? {
      assert ext[k] == grants[k - 1 - |revokes|];
    }
  }

  /** Convergence revokes exactly the grantees it was given to revoke and grants exactly those it was given to grant. */
  lemma ListingRevokesGrantsMention(revoked: seq<string>, granted: seq<string>)
    ensures var ext := [RoleUsers] + RevokeCalls(revoked) + GrantCalls(granted);
      && (forall u :: Revoke(u) in ext <==> u in revoked)
      && (forall u :: Grant(u) in ext <==> u in granted)
  {
    CallsMention(revoked);
    CallsMention(granted);
  }

  /**
   What convergence issues once the listing succeeds: after the listing come
   only revokes and grants, every revoke before every grant; a member is
   revoked exactly when it is not desired and a desired entry is granted
   exactly when it is not a member.
   */
  lemma ConvergeCalls(p: Pass, d: Database, o: Oracle)
    requires Succeeds(o, RoleUsers)
    ensures var ext := Converge(p, d, o).pass.trace[|p.trace|..];
      && (forall i :: 0 < i < |ext| ==> ext[i].Revoke? || ext[i].Grant?)
      && (forall i, j :: 0 < i < j < |ext| && ext[i].Grant? ==> ext[j].Grant?)
      && (forall u :: Revoke(u) in ext <==> u in p.world.server.members && u !in Desired(d))
      && (forall u :: Grant(u) in ext <==> u in Desired(d) && u !in p.world.server.members)
  {
    ConvergeTrace(p, d, o);
    ListingRevokesGrantsOrder(Missing(p.world.server.members, Desired(d)), Missing(Desired(d), p.world.server.members));
    ListingRevokesGrantsMention(Missing(p.world.server.members, Desired(d)), Missing(Desired(d), p.world.server.members));
  }

  /**
   What convergence leaves behind once the listing succeeds: the role keeps
   the members that are desired or whose revoke failed and gains the desired
   entries whose grant succeeded; nothing but the role's members changes.
   */
  lemma ConvergeMembers(p: Pass, d: Database, o: Oracle)
    requires Succeeds(o, RoleUsers)
    ensures var w := Converge(p, d, o).pass.world;
      forall x :: x in w.server.members <==>
        || (x in p.world.server.members && (x in Desired(d) || !Succeeds(o, Revoke(x))))
        || (x in Desired(d) && x !in p.world.server.members && Succeeds(o, Grant(x)))
  {
    var current := p.world.server.members;
    var p1 := Issue(p, RoleUsers, o);
    var revoked := IssueAll(p1, RevokeCalls(Missing(current, Desired(d))), o);
    MembershipFrame(p1, RevokeCalls(Missing(current, Desired(d))), o);
    RevokesMembers(p1, Missing(current, Desired(d)), o);
    GrantsMembers(revoked, Missing(Desired(d), current), o);
  }

  /** Convergence changes nothing but the role's members. */
  lemma ConvergeFrame(p: Pass, d: Database, o: Oracle)
    ensures var w := Converge(p, d, o).pass.world;
      w == p.world.(server := p.world.server.(members := w.server.members))
  {
    if Succeeds(o, RoleUsers) {
      var current := p.world.server.members;
      var p1 := Issue(p, RoleUsers, o);
      var revoked := IssueAll(p1, RevokeCalls(Missing(current, Desired(d))), o);
      MembershipFrame(p1, RevokeCalls(Missing(current, Desired(d))), o);
      MembershipFrame(revoked, GrantCalls(Missing(Desired(d), current)), o);
    }
  }

  /**
   Creation of a database that does not exist yet: the database, then a
   generated owner named after it. Any failure ends the pass with that error.
   */
  function Create(p: Pass, d: Database, o: Oracle): (r: Outcome)
    ensures |r.pass.trace| > |p.trace| && r.pass.trace[..|p.trace|] == p.trace
    ensures r.pass.trace[|p.trace|] == CreateDatabase
    ensures r.err.Some? ==> r.err.value.CallFailed? && !Succeeds(o, r.err.value.call)
  {
    var p1 := Issue(p, CreateDatabase, o);
    if !Succeeds(o, CreateDatabase) then Outcome(p1, Some(CallFailed(CreateDatabase)))
    else
      var p2 := Issue(p1, NewUser, o);
      if !Succeeds(o, NewUser) then Outcome(p2, Some(CallFailed(NewUser)))
      else
        var owner := User(d.name, o.password);
        var p3 := Issue(p2, CreateUser(owner), o);
        if !Succeeds(o, CreateUser(owner)) then Outcome(p3, Some(CallFailed(CreateUser(owner))))
        else
          var r := Publish(p3, d, owner, o);
          PrefixTransitive(p2.trace, p1.trace, p.trace);
          PrefixTransitive(p3.trace, p2.trace, p.trace);
          PrefixTransitive(r.pass.trace, p3.trace, p.trace);
          r
  }

  /**
   After creation: write the credential secret, then record phase Created and
   converge. A failed secret ends the pass without an error, before the phase
   update and before convergence.
   */
  function Publish(p: Pass, d: Database, owner: User, o: Oracle): (r: Outcome)
    ensures |r.pass.trace| > |p.trace| && r.pass.trace[..|p.trace|] == p.trace
    ensures r.pass.trace[|p.trace|] == CreateSecret(CredentialSecret(d, o.host, owner.username, owner.password))
    ensures r.err.Some? ==> r.err.value.CallFailed? && !Succeeds(o, r.err.value.call)
    ensures !Succeeds(o, CreateSecret(CredentialSecret(d, o.host, owner.username, owner.password))) ==>
      r.err == None && r.pass == Pass(p.trace + [CreateSecret(CredentialSecret(d, o.host, owner.username, owner.password))], p.world)
  {
    var secret := CreateSecret(CredentialSecret(d, o.host, owner.username, owner.password));
    var p1 := Issue(p, secret, o);
    if !Succeeds(o, secret) then Outcome(p1, None)
    else
      var created := d.(phase := PhaseCreated);
      var p2 := Issue(p1, Update(created), o);
      if !Succeeds(o, Update(created)) then Outcome(p2, Some(CallFailed(Update(created))))
      else
        var r := Converge(p2, created, o);
        PrefixTransitive(p2.trace, p1.trace, p.trace);
        PrefixTransitive(r.pass.trace, p2.trace, p.trace);
        r
  }

  /** Provisioning runs only while the phase is not Created; an existing database is left alone. */
  function Provision(p: Pass, d: Database, o: Oracle): (r: Outcome)
    ensures |r.pass.trace| > |p.trace| && r.pass.trace[..|p.trace|] == p.trace
    ensures r.pass.trace[|p.trace|] == if d.phase == PhaseCreated then RoleUsers else Exists
    ensures r.err.Some? ==> r.err.value.CallFailed? && !Succeeds(o, r.err.value.call)
  {
    if d.phase != PhaseCreated then
      var p1 := Issue(p, Exists, o);
      if !Succeeds(o, Exists) then Outcome(p1, Some(CallFailed(Exists)))
      else
        var r := if p.world.server.dbExists then Converge(p1, d, o) else Create(p1, d, o);
        PrefixTransitive(r.pass.trace, p1.trace, p.trace);
        r
    else Converge(p, d, o)
  }

  /**
   The finalizer protocol. An object that is not being deleted gets the
   finalizer appended and persisted when it lacks it, then goes on to
   provisioning. An object being deleted that carries the finalizer is
   finalized, loses every copy of the finalizer, is marked Terminating and
   persisted, and the pass ends. An object being deleted without the
   finalizer goes on to provisioning like any other.
   */
  function Protect(p: Pass, d: Database, o: Oracle): (r: Outcome)
    ensures |r.pass.trace| > |p.trace| && r.pass.trace[..|p.trace|] == p.trace
    ensures r.err.Some? ==> r.err.value.CallFailed? && !Succeeds(o, r.err.value.call)
  {
    if !d.deleting then
      if !Contains(d.finalizers, FinalizerName) then
        var registered := d.(finalizers := d.finalizers + [FinalizerName]);
        var p1 := Issue(p, Update(registered), o);
        if !Succeeds(o, Update(registered)) then Outcome(p1, Some(CallFailed(Update(registered))))
        else
          var r := Provision(p1, registered, o);
          PrefixTransitive(r.pass.trace, p1.trace, p.trace);
          r
      else Provision(p, d, o)
    else if Contains(d.finalizers, FinalizerName) then
      var f := Finalize(p, d, o);
      if f.err.Some? then f
      else
        var released := d.(finalizers := RemoveString(d.finalizers, FinalizerName), phase := PhaseTerminating);
        var p2 := Issue(f.pass, Update(released), o);
        if !Succeeds(o, Update(released)) then Outcome(p2, Some(CallFailed(Update(released))))
        else Outcome(p2, None)
    else Provision(p, d, o)
  }

  /**
   The pass once the object is in hand: a Terminating object is left alone;
   the type selects the adapter, where only the PostgreSQL type connects and
   only the literal wildcard type is refused; any other type goes on with the
   adapter already in hand.
   */
  function ReconcileObject(p: Pass, d: Database, o: Oracle): (r: Outcome)
    ensures r.err == Some(Unsupported) <==> d.phase != PhaseTerminating && d.dbType == WildcardType
    ensures r.err.Some? && r.err != Some(Unsupported) ==> r.err.value.CallFailed? && !Succeeds(o, r.err.value.call)
  {
    if d.phase == PhaseTerminating then Outcome(p, None)
    else if d.dbType == PostgresType then
      var p1 := Issue(p, Connect, o);
      if !Succeeds(o, Connect) then Outcome(p1, Some(CallFailed(Connect)))
      else Protect(p1, d, o)
    else if d.dbType == WildcardType then Outcome(p, Some(Unsupported))
    else Protect(p, d, o)
  }

  /** One reconcile pass: a missing object is not an error, a failed fetch is. */
  function Reconcile(w: World, o: Oracle): (r: Outcome)
    ensures r.err == Some(FetchFailed) <==> o.fetchFails
    ensures r.err == Some(Unsupported) <==>
      !o.fetchFails && w.stored.Some? && w.stored.value.phase != PhaseTerminating && w.stored.value.dbType == WildcardType
    ensures r.err.Some? && !o.fetchFails ==> w.stored.Some?
  {
    var start := Pass([], w);
    if o.fetchFails then Outcome(start, Some(FetchFailed))
    else match w.stored
      case None => Outcome(start, None)
      case Some(d) => ReconcileObject(start, d, o)
  }
}

=== FILE: resource.dfy ===
/**
 The `Database` custom resource as the controller sees it, and the credential
 secret it derives from one.
 */
module Resource {

  datatype Option<+T> = None | Some(value: T)

  /** The marker the controller puts on every `Database` it is responsible for. */
  const FinalizerName: string := "db.clarizen.cloud"

  /** The only values the controller ever writes into `Status.Phase`. */
  const PhaseCreated: string := "Created"
  const PhaseTerminating: string := "Terminating"

  /** The database type that selects the PostgreSQL adapter, and the one that is rejected. */
  const PostgresType: string := "postgres"
  const WildcardType: string := "*"

  /** The port written into every credential secret, whatever the adapter. */
  const PostgresPort: string := "5432"

  /**
   One `Database` object. `deleting` stands for a non-zero deletion
   timestamp; `phase` is the free-form `Status.Phase` string, empty on a
   fresh object.
   */
  datatype Database = Database(
    name: string,
    namespace: string,
    dbType: string,
    users: seq<string>,
    drop: bool,
    deleting: bool,
    finalizers: seq<string>,
    phase: string)

  /** The namespaced name of a Kubernetes secret. */
  datatype SecretKey = SecretKey(namespace: string, name: string)

  /**
   The five connection fields a credential secret carries; `Data` lays them
   out under the secret's data keys.
   */
  datatype Credentials = Credentials(host: string, port: string, database: string, user: string, password: string)

  /** A credential secret: its key and its connection fields. */
  datatype Secret = Secret(key: SecretKey, fields: Credentials)

  /** The secret belonging to a database is named `<name>-<type>` in the database's namespace. */
  function CredentialKey(d: Database): SecretKey {
    SecretKey(d.namespace, d.name + "-" + d.dbType)
  }

  /**
   The credential secret written after provisioning: server host, the fixed
   port, the database name, and the owner's user name and password.
   */
  function CredentialSecret(d: Database, host: string, username: string, password: string): (s: Secret)
    ensures s.key == CredentialKey(d)
    ensures s.fields.port == PostgresPort && s.fields.database == d.name
  {
    Secret(CredentialKey(d), Credentials(host, PostgresPort, d.name, username, password))
  }

  /** The secret's data as stored: one entry per connection field. */
  function Data(s: Secret): map<string, string> {
    map[
      "database-host" := s.fields.host,
      "database-port" := s.fields.port,
      "database-name" := s.fields.database,
      "database-user" := s.fields.user,
      "database-password" := s.fields.password]
  }

  /** Reads the connection fields back from a secret's data, when all five keys are present. */
  function Fields(data: map<string, string>): Option<Credentials>
  {
    if "database-host" in data && "database-port" in data && "database-name" in data
      && "database-user" in data && "database-password" in data
    then Some(Credentials(data["database-host"], data["database-port"], data["database-name"],
      data["database-user"], data["database-password"]))
    else None
  }

  /** Laying the fields out as data and reading them back gives the same fields. */
  lemma DataRoundTrip(s: Secret)
    ensures Fields(Data(s)) == Some(s.fields)
  {
  }

  /**
   Conversely, data holding exactly the five keys is the layout of the
   fields read back from it: no entry of such a map is lost or invented.
   */
  lemma FieldsThenData(data: map<string, string>, k: SecretKey)
    requires data.Keys == {"database-host", "database-port", "database-name", "database-user", "database-password"}
    ensures Fields(data).Some? && Data(Secret(k, Fields(data).value)) == data
  {
  }

  /**
   Two databases of the same type in the same namespace share a credential
   secret only when they have the same name.
   */
  lemma CredentialKeyDistinguishesNames(d1: Database, d2: Database)
    requires d1.namespace == d2.namespace && d1.dbType == d2.dbType
    ensures CredentialKey(d1) == CredentialKey(d2) <==> d1.name == d2.name
  {
    if CredentialKey(d1) == CredentialKey(d2) {
      var k := CredentialKey(d1).name;
      assert |d1.name| == |k| - 1 - |d1.dbType| == |d2.name|;
      assert d1.name == k[..|d1.name|] == d2.name;
    }
  }

  /** The credential secret's data holds exactly the five connection fields. */
  lemma CredentialSecretContents(d: Database, host: string, username: string, password: string)
    ensures var data := Data(CredentialSecret(d, host, username, password));
      && data.Keys == {"database-host", "database-port", "database-name", "database-user", "database-password"}
      && data["database-host"] == host && data["database-port"] == PostgresPort
      && data["database-name"] == d.name
      && data["database-user"] == username && data["database-password"] == password
  {
  }

  /** The secret key depends only on the fields the controller never writes. */
  lemma CredentialKeyIgnoresStatus(d: Database, phase: string, finalizers: seq<string>)
    ensures CredentialKey(d.(phase := phase, finalizers := finalizers)) == CredentialKey(d)
  {
  }
}

=== FILE: scenarios.dfy ===
/**
 A worked pass over a fresh PostgreSQL database with one declared user, on a
 server where only that user's login exists, composed stage by stage: registration, creation, convergence.
 */
module Scenarios {
  import opened Lists
  import opened Resource
  import opened External
  import opened Reconciler
  import opened ReconcilerProperties
  import opened ProvisioningProperties

  /** A fresh object with one declared user. */
  function Fresh(name: string, namespace: string, user: string): Database {
    Database(name, namespace, PostgresType, [user], true, false, [], "")
  }

  /**
   The object stored over a server with neither the database nor the role,
   where the declared user already has a login (a grant needs an existing
   grantee).
   */
  function FreshWorld(d: Database, user: string): World {
    World(Some(d), Server(false, false, {user}, []), map[])
  }

  /**
   A fresh object on a server holding only the user's login, with every
   request succeeding: register the finalizer, check, create the database
   and the owner, publish the secret, record Created, list the (empty) role
   and grant the owner, then the user.
   */
  lemma FreshDatabaseIsProvisioned(name: string, namespace: string, user: string, password: string, host: string)
    requires user != name
    ensures var d := Fresh(name, namespace, user); var o := Oracle(false, {}, password, host);
      var registered := d.(finalizers := [FinalizerName]);
      var created := registered.(phase := PhaseCreated);
      var secret := CredentialSecret(registered, host, name, password);
      var r := Reconcile(FreshWorld(d, user), o);
      && r.err == None
      && r.pass.trace == [Connect, Update(registered), Exists]
                          + [CreateDatabase, NewUser, CreateUser(User(name, password)), CreateSecret(secret), Update(created)]
                          + [RoleUsers, Grant(name), Grant(user)]
      && r.pass.world.stored == Some(created)
      && r.pass.world.server == Server(true, true, {user, name}, [name, user])
      && r.pass.world.secrets == map[CredentialKey(d) := secret]
  {
    var d := Fresh(name, namespace, user);
    var o := Oracle(false, {}, password, host);
    var registered := d.(finalizers := [FinalizerName]);
    var created := registered.(phase := PhaseCreated);
    var secret := CredentialSecret(registered, host, name, password);
    var p2 := Pass([Connect, Update(registered), Exists], FreshWorld(d, user).(stored := Some(registered)));
    var creation := [CreateDatabase, NewUser, CreateUser(User(name, password)), CreateSecret(secret), Update(created)];
    var s := p2.world.server;
    var p7 := Pass(p2.trace + creation,
                   p2.world.(stored := Some(created),
                             server := s.(dbExists := true, roleExists := true, logins := s.logins + {name}),
                             secrets := p2.world.secrets[secret.key := secret]));
    var last := Pass(p7.trace + [RoleUsers, Grant(name), Grant(user)],
                     p7.world.(server := p7.world.server.(members := [name, user])));
    FreshOutcome(name, namespace, user, password, host);
    assert s.logins + {name} == {user, name};
    assert secret.key == CredentialKey(d);
    assert p2.world.secrets[secret.key := secret] == map[CredentialKey(d) := secret];
    assert last.trace == [Connect, Update(registered), Exists] + creation + [RoleUsers, Grant(name), Grant(user)];
  }

  /** The outcome of the fresh pass as the composition of its stages. */
  lemma FreshOutcome(name: string, namespace: string, user: string, password: string, host: string)
    requires user != name
    ensures var d := Fresh(name, namespace, user); var o := Oracle(false, {}, password, host);
      var registered := d.(finalizers := [FinalizerName]);
      var created := registered.(phase := PhaseCreated);
      var secret := CredentialSecret(registered, host, name, password);
      var p2 := Pass([Connect, Update(registered), Exists], FreshWorld(d, user).(stored := Some(registered)));
      var s := p2.world.server;
      var p7 := Pass(p2.trace + [CreateDatabase, NewUser, CreateUser(User(name, password)), CreateSecret(secret), Update(created)],
                     p2.world.(stored := Some(created),
                               server := s.(dbExists := true, roleExists := true, logins := s.logins + {name}),
                               secrets := p2.world.secrets[secret.key := secret]));
      Reconcile(FreshWorld(d, user), o) ==
        Outcome(Pass(p7.trace + [RoleUsers, Grant(name), Grant(user)],
                     p7.world.(server := p7.world.server.(members := [name, user]))), None)
  {
    var d := Fresh(name, namespace, user);
    var registered := d.(finalizers := [FinalizerName]);
    var created := registered.(phase := PhaseCreated);
    var secret := CredentialSecret(registered, host, name, password);
    var p2 := Pass([Connect, Update(registered), Exists], FreshWorld(d, user).(stored := Some(registered)));
    var s := p2.world.server;
    var p7 := Pass(p2.trace + [CreateDatabase, NewUser, CreateUser(User(name, password)), CreateSecret(secret), Update(created)],
                   p2.world.(stored := Some(created),
                             server := s.(dbExists := true, roleExists := true, logins := s.logins + {name}),
                             secrets := p2.world.secrets[secret.key := secret]));
    FreshReachesConvergence(name, namespace, user, password, host);
    ConvergeEmptyRole(p7, created, user, Oracle(false, {}, password, host));
  }

  /** A fresh object is registered and created, and goes on to converge its empty role. */
  lemma FreshReachesConvergence(name: string, namespace: string, user: string, password: string, host: string)
    ensures var d := Fresh(name, namespace, user); var o := Oracle(false, {}, password, host);
      var registered := d.(finalizers := [FinalizerName]);
      var created := registered.(phase := PhaseCreated);
      var secret := CredentialSecret(registered, host, name, password);
      var p2 := Pass([Connect, Update(registered), Exists], FreshWorld(d, user).(stored := Some(registered)));
      var s := p2.world.server;
      Reconcile(FreshWorld(d, user), o) ==
        Converge(Pass(p2.trace + [CreateDatabase, NewUser, CreateUser(User(name, password)), CreateSecret(secret), Update(created)],
                      p2.world.(stored := Some(created),
                                server := s.(dbExists := true, roleExists := true, logins := s.logins + {name}),
                                secrets := p2.world.secrets[secret.key := secret])),
                 created, o)
  {
    var d := Fresh(name, namespace, user);
    var registered := d.(finalizers := [FinalizerName]);
    var p2 := Pass([Connect, Update(registered), Exists], FreshWorld(d, user).(stored := Some(registered)));
    FreshReachesCreation(name, namespace, user, password, host);
    CreateAllSucceed(p2, registered, Oracle(false, {}, password, host));
  }

  /** A fresh object is registered, then found missing, and goes on to creation. */
  lemma FreshReachesCreation(name: string, namespace: string, user: string, password: string, host: string)
    ensures var d := Fresh(name, namespace, user); var o := Oracle(false, {}, password, host);
      var registered := d.(finalizers := [FinalizerName]);
      Reconcile(FreshWorld(d, user), o)
        == Create(Pass([Connect, Update(registered), Exists], FreshWorld(d, user).(stored := Some(registered))), registered, o)
  {
    var d := Fresh(name, namespace, user);
    var o := Oracle(false, {}, password, host);
    var w := FreshWorld(d, user);
    var registered := d.(finalizers := d.finalizers + [FinalizerName]);
    assert registered.finalizers == [FinalizerName];
    var p0 := Pass([Connect], w);
    var p1 := Issue(p0, Update(registered), o);
    var p2 := Issue(p1, Exists, o);
    assert p2.trace == [Connect, Update(registered), Exists];
    assert p2.world == w.(stored := Some(registered));
    Admission(w, o);
    assert Protect(p0, d, o) == Provision(p1, registered, o);
    assert Provision(p1, registered, o) == Create(p2, registered, o);
  }

  /** Convergence of an empty role towards the owner and one other user grants both, in that order. */
  lemma ConvergeEmptyRole(p: Pass, d: Database, user: string, o: Oracle)
    requires o.failing == {} && p.world.server.members == [] && d.users == [user] && user != d.name
    ensures Converge(p, d, o) ==
      Outcome(Pass(p.trace + [RoleUsers, Grant(d.name), Grant(user)],
                   p.world.(server := p.world.server.(members := [d.name, user]))), None)
  {
    var p8 := Issue(p, RoleUsers, o);
    assert p8.world == p.world;
    ConvergeFromEmpty(p, d, o);
    assert Desired(d) == [d.name, user];
    TwoGrants(p8, d.name, user, o);
    Snoc3(p.trace, RoleUsers, Grant(d.name), Grant(user));
  }

  lemma Snoc3(t: seq<Call>, a: Call, b: Call, c: Call)
    ensures t + [a] + [b, c] == t + [a, b, c]
  {
  }

  /** Convergence of an empty role lists it and grants every desired entry, in order. */
  lemma ConvergeFromEmpty(p: Pass, d: Database, o: Oracle)
    requires Succeeds(o, RoleUsers) && p.world.server.members == []
    ensures Converge(p, d, o) == Outcome(IssueAll(Issue(p, RoleUsers, o), GrantCalls(Desired(d)), o), None)
  {
    MissingFromEmpty(Desired(d));
  }

  /** Two distinct grants into an empty role make it hold both, in order. */
  lemma TwoGrants(p: Pass, a: string, b: string, o: Oracle)
    requires o.failing == {} && p.world.server.members == [] && a != b
    ensures IssueAll(p, GrantCalls([a, b]), o) ==
      Pass(p.trace + [Grant(a), Grant(b)], p.world.(server := p.world.server.(members := [a, b])))
  {
    var p1 := Issue(p, Grant(a), o);
    assert GrantCalls([a, b]) == [Grant(a), Grant(b)];
    assert [Grant(a), Grant(b)][1..] == [Grant(b)];
    assert IssueAll(p1, [Grant(b)], o) == Issue(p1, Grant(b), o);
  }
}
